=== FILE: README.md ===
# jinji_runch_bot — a Dafny model of the decision core

jinji_runch_bot scrapes the newest post of a KakaoTalk channel's post list
and forwards it to Telegram. It chooses the post, reads its title, text and
images, downloads the images and sends a message plus photo albums. This
project models the pure decisions inside that pipeline and proves
properties about them. The browser, the network and the clock are
parameters of the model.

Modules (one file each):

- `Wrappers` (`wrappers.dfy`): `Option` and `Result`.
- `Text` (`text.dfy`): the Python string operations the code uses.
  - `str.strip`, with whitespace as in `str.isspace`.
  - The `in` substring test.
  - `int()` on digit strings, and `str.lower`.
- `DateLabels` (`date_labels.dfy`): the three "is this date label today?" classifiers.
  - `is_today` in `playwright_kakao_posts_today.py`.
  - `_is_today_like` and `_is_today_label` in `src/kakao_scraper.py`.
  - Their regular expressions are written out as position scans.
- `Urls` (`urls.dfy`): `urljoin` against the channel site `https://pf.kakao.com`, shared by both scrapers, with the reference cleaned first as `urlsplit` does.
- `CardSelection` (`card_selection.dfy`): `pick_best_post_link`.
  - Three candidate lists (today, pinned, any) and a priority fallthrough.
  - The `RuntimeError` raised when no card has a link.
- `StyleUrls` (`style_urls.dfy`): two regular-expression scanners.
  - `_extract_bg_image_urls_from_style`, using `re.finditer` with a lazy `.*?` and a backreference to the quote.
  - `parse_bg_image`, using `re.search`.
- `Images` (`images.dfy`): image handling.
  - The image list of a detail page and its order-preserving de-duplication.
  - The file extension chosen from a download's content type.
  - `guess_ext`, built on `os.path.splitext`.
- `Filenames` (`filenames.dfy`): `sanitize_filename`.
- `TodayFilter` (`today_filter.dfy`): the today-card loop of the standalone script's `main`.
  - `--max-today` is a parameter.
- `Messages` (`messages.dfy`): the sending step, identical in `src/runner.py` and `src/telegram_command_bot.py`.
  - `build_message`.
  - The photo albums of at most ten.
  - The `mode` dispatch, and where each mode comes from.
- `Delay` (`delay.dfy`): `parse_delay_arg`.
  - The time of day is a parameter in microseconds.

Facts about the code that shape the model:

- `is_today` first looks for `방금`, `분 전`, `시간 전` and `오늘`, then rejects `일 전`, and only then searches for a `YYYY.MM.DD.` date anywhere in the label.
- There are three label classifiers, and they disagree with each other (see the `…SplitsClassifiers` lemmas). Each one is modelled on its own.
- `scrape_today_post` raises `RuntimeError` when no card has a link. The model returns `Failure(NoPostLink)`.

## Model

| member | source | states |
|---|---|---|
| Text.Strip | src/kakao_scraper.py:27 | `strip()` returns a string with no whitespace at either end, never longer than its input, and leaves an already-stripped string unchanged |
| Text.StripEmptyIffBlank | src/kakao_scraper.py:27-29 | stripping gives the empty string exactly when every character of the input is whitespace |
| Text.StripIsSlice | src/kakao_scraper.py:27 | the stripped string is a contiguous slice of the input, and everything cut from either end is whitespace |
| Text.ContainsIffOccurs | src/kakao_scraper.py:232 | Python's `p in s` holds exactly when `p` occurs at some index of `s` |
| Text.LeadingZerosValue | src/time_utils.py:19 | leading zeros do not change the value `int()` reads |
| Text.DecimalRoundTrip | src/time_utils.py:18-19 | `int(str(n)) == n` for every natural number (Python's own digit limit is not modelled, see below) |
| Text.LowerIdempotent | playwright_kakao_posts_today.py:32 | lowering twice is lowering once |
| DateLabels.SearchDateIsLeftmost | playwright_kakao_posts_today.py:50-52 | `re.search` for `YYYY.MM.DD.` finds the date at the leftmost position that starts one, and finds none only when no position does |
| DateLabels.DateLabelRoundTrip | src/kakao_scraper.py:236-238 | a date written as `YYYY.MM.DD.` is read back by `re.match` as the same year, month and day, whatever follows it |
| DateLabels.CountAgoIffMatch | src/kakao_scraper.py:20-21 | the scan for a relative label is true exactly when some digits, optional spaces, the unit, optional spaces and `전` follow each other in the label |
| DateLabels.CountAgoNeedsDigitAndUnit | src/kakao_scraper.py:20-21 | a label matched as `N분 전`/`N시간 전` contains a digit, the whole unit as a substring, and `전` |
| DateLabels.TodayLikeRejectsBlank | src/kakao_scraper.py:27-29 | `_is_today_like` is false for an empty or whitespace-only label |
| DateLabels.BlankIsNeverToday | src/kakao_scraper.py:228-243 | an empty or whitespace-only label is not today for `_is_today_label`, for `is_today` and for `_is_today_like` |
| DateLabels.TodayLikeIffPatterns | src/kakao_scraper.py:18-34 | `_is_today_like` is true exactly when the stripped label is non-empty and contains `방금`, `오늘`, or a digits-unit-`전` match for `분` or `시간` |
| DateLabels.TodayLikeRejectsAbsoluteDate | src/kakao_scraper.py:33-34 | `_is_today_like` is false on every `YYYY.MM.DD.` label |
| DateLabels.DaysAgoIsNeverToday | src/kakao_scraper.py:242-243 | `N일 전` is not today for any of the three classifiers |
| DateLabels.CountAgoIsAlwaysToday | src/kakao_scraper.py:231-233 | `N분 전` and `N시간 전` are today for all three classifiers |
| DateLabels.TodayWordSplitsClassifiers | src/kakao_scraper.py:228-243 | `오늘` is today for `is_today` and `_is_today_like` but not for `_is_today_label` |
| DateLabels.JustNowPhraseSplitsClassifiers | src/kakao_scraper.py:232 | `방금 전` passes `_is_today_like` but fails `_is_today_label`, which wants exactly `방금` |
| DateLabels.WordCountSplitsClassifiers | src/kakao_scraper.py:20-21 | `몇 분 전` passes `_is_today_label` but not `_is_today_like`, which needs digits |
| DateLabels.TodayLabelDateRule | src/kakao_scraper.py:236-240 | a label starting with `YYYY.MM.DD.`, followed by no `분 전`/`시간 전`, is today for `_is_today_label` exactly when that date is the reference date |
| DateLabels.TodayDateAnywhereRule | playwright_kakao_posts_today.py:50-53 | for `is_today`, a date after a digit-free lead-in, with no recency word and no `일 전`, decides: today exactly when it equals the reference date |
| DateLabels.SearchDateSkipsDigitFree | playwright_kakao_posts_today.py:50 | no date match starts inside a digit-free prefix |
| CardSelection.CardAnchor | src/kakao_scraper.py:265-270 | the title anchor is used when present, otherwise the board anchor; there is none only when both are absent |
| CardSelection.AnyLinksFromAnchors | src/kakao_scraper.py:265-277 | a link is in the `any` list exactly when some card's title anchor, or its board anchor when it has no title anchor, has a non-empty `href` that `urljoin` resolves to that link; a title anchor without `href` drops the card |
| CardSelection.LinksHead | src/kakao_scraper.py:293-299 | a candidate list is empty exactly when no card is in its bucket, and otherwise starts with the link of the first such card |
| CardSelection.LinksMembers | src/kakao_scraper.py:293-299 | a link is in a candidate list exactly when some card of that bucket has it |
| CardSelection.CollectCandidates | src/kakao_scraper.py:258-299 | the one-pass loop builds exactly the today, pinned and any lists, in card order |
| CardSelection.PickBestPostLink | src/kakao_scraper.py:301-308 | the reason is `today` iff some card is today, `pinned` iff none is today and one is pinned, `latest` iff neither but one is linked; the link is that of the first card of the chosen bucket; `none` (no link) iff no card is linked; any link returned belongs to a card |
| CardSelection.SelectPostLink | src/kakao_scraper.py:205-208 | the scrape fails exactly when no card has a link, and otherwise continues with the link of some card |
| StyleUrls.UrlClose | src/kakao_scraper.py:45 | the lazy `.*?` stops at the leftmost closing quote-and-parenthesis that is reached without crossing a newline, and finds none only when every closing is past a newline |
| StyleUrls.UrlCloseFinds | src/kakao_scraper.py:45 | conversely, the first closing reached without a newline is the one found |
| StyleUrls.ExtractBgImageUrls | src/kakao_scraper.py:37-49 | an empty style gives `[]`; every URL returned is non-empty and stripped |
| StyleUrls.ExtractedUrlsAreInStyle | src/kakao_scraper.py:45-48 | every URL returned occurs in the style text |
| StyleUrls.ExtractQuotedUrl | src/kakao_scraper.py:44-48 | `url("u")` yields exactly `[u]` |
| StyleUrls.ExtractUnquotedUrl | src/kakao_scraper.py:44-48 | `url(u)` without quotes yields exactly `[u]` |
| StyleUrls.BgClose | playwright_kakao_posts_today.py:25 | the lazy group of `parse_bg_image` stops at the leftmost optional-quote-and-parenthesis reached without a newline |
| StyleUrls.BgCloseFinds | playwright_kakao_posts_today.py:25 | conversely, the first such closing reached without a newline is the one found |
| StyleUrls.ParseBgImageIsSearch | playwright_kakao_posts_today.py:21-26 | `parse_bg_image` gives a value exactly when the style is non-empty and the pattern matches at some position; the value is the group of the leftmost match |
| StyleUrls.ParseBgImageWithoutUrl | playwright_kakao_posts_today.py:25-26 | a style whose every `background-image:` is not followed by `url(` (such as `background-image: none`) gives `None` |
| StyleUrls.ParseBgImageNeedsProperty | playwright_kakao_posts_today.py:25-26 | a style without `background-image:` gives `None` |
| StyleUrls.ParseBgImageShape | playwright_kakao_posts_today.py:25 | a URL found contains no `)` and no newline |
| StyleUrls.ParseQuotedBgImage | playwright_kakao_posts_today.py:22-26 | `background-image: url("u");` gives `u` back |
| Images.ImageCandidates | src/kakao_scraper.py:112-126 | every candidate image URL is stripped |
| Images.DedupLoop | src/kakao_scraper.py:128-136 | the loop with its `seen` set keeps exactly what the reference walk over the stripped URLs keeps, in input order |
| Images.DedupImageUrls | src/kakao_scraper.py:128-136 | the result equals the reference walk; it has no repeats and no empty or padded entries, and holds exactly the non-empty stripped inputs |
| Images.DedupFacts | src/kakao_scraper.py:128-136 | the reference walk keeps distinct, non-empty, stripped, unseen URLs, and exactly those |
| Images.DedupAppend | src/kakao_scraper.py:128-136 | de-duplicating a concatenation is de-duplicating the first part, then the second part with everything seen so far |
| Images.DedupPrefix | src/kakao_scraper.py:128-136 | first-occurrence order: the output for a prefix of the input is a prefix of the whole output |
| Images.DedupKeepsCleanList | src/kakao_scraper.py:128-136 | a list already distinct, non-empty and stripped is kept unchanged |
| Images.ExtForContentType | src/kakao_scraper.py:155-160 | the extension is always `.png`, `.webp` or `.jpg` |
| Images.ExtForContentTypeRule | src/kakao_scraper.py:155-160 | on every content type: `.png` when the lowered header contains `png`, otherwise `.webp` when it contains `webp`, otherwise `.jpg`; a missing header gives `.jpg` |
| Images.ExtForContentTypeIgnoresCase | src/kakao_scraper.py:156 | the content type is compared without regard to letter case |
| Images.ExtForContentTypeDefault | src/kakao_scraper.py:155-160 | a content type whose lowered form contains neither `png` nor `webp` (`image/jpeg`, `image/gif`, …) gives `.jpg` |
| Images.PngContentType | src/kakao_scraper.py:157-158 | `image/PNG` gives `.png` |
| Images.WebpContentType | src/kakao_scraper.py:159-160 | `image/webp` gives `.webp` |
| Images.RFind | playwright_kakao_posts_today.py:31 | the search `splitext` makes for the last dot: a position holding the character with no later occurrence, or -1 when there is none |
| Images.SplitExt | playwright_kakao_posts_today.py:31 | `splitext`'s extension is empty or one dot followed by neither a dot nor a slash |
| Images.SplitExtOfName | playwright_kakao_posts_today.py:31 | for `dir/stem.e` the extension is `.e` |
| Images.LStripDots | playwright_kakao_posts_today.py:32 | `lstrip(".")` removes exactly the leading dots |
| Images.GuessExt | playwright_kakao_posts_today.py:29-35 | the result is always one of `jpg`, `png`, `webp`, `gif` |
| Images.GuessExtOfName | playwright_kakao_posts_today.py:29-35 | for `dir/stem.e` the result is `e` lower-cased when known, `jpg` for `jpeg`, and `jpg` when unknown |
| Images.GuessExtWithoutDot | playwright_kakao_posts_today.py:31-35 | a path with no dot gives `jpg` |
| Images.GuessExtOfDotFile | playwright_kakao_posts_today.py:31-35 | a hidden file `dir/.e` has no extension and gives `jpg` |
| Filenames.Collapse | playwright_kakao_posts_today.py:16-17 | after `re.sub(<class>+, rep)` every class character is `rep`, no two class characters are adjacent, the result is no longer than the input, and when neither the input nor `rep` has a forbidden character the result has none |
| Filenames.CollapseKeepsOthers | playwright_kakao_posts_today.py:17 | for the whitespace pass (`rep` inside the class): every character outside the class is kept, in order, and no other such character appears |
| Filenames.CollapseKeepsUntouched | playwright_kakao_posts_today.py:16-17 | for either pass, whatever `rep` is: every character outside the class and other than `rep` is kept, in order, and no other such character appears |
| Filenames.CollapseRun | playwright_kakao_posts_today.py:16-17 | a string made only of class characters becomes exactly one `rep` |
| Filenames.CollapseAppend | playwright_kakao_posts_today.py:16-17 | the substitution splits at any boundary no run straddles: collapsing `a + b` is collapsing `a`, then `b` |
| Filenames.CollapseRunInside | playwright_kakao_posts_today.py:16-17 | each maximal run of class characters, wherever it stands, becomes exactly one `rep` between the collapsed text on its two sides |
| Filenames.Normalize | playwright_kakao_posts_today.py:16-17 | after both substitutions and `strip()` the name has no whitespace at either end |
| Filenames.Sanitize | playwright_kakao_posts_today.py:15-18 | the result is at most 120 characters |
| Filenames.SanitizeIsSafe | playwright_kakao_posts_today.py:15-18 | the result has none of `\ / : * ? " < > \|`, no leading whitespace, only plain spaces, never two in a row, and at most 120 characters |
| Filenames.CollapseFixed | playwright_kakao_posts_today.py:16-17 | a string whose class characters are all `rep` and never adjacent is left alone |
| Filenames.SanitizeKeepsCleanName | playwright_kakao_posts_today.py:15-18 | a name that is already clean and short enough is returned unchanged |
| Filenames.CollapseRunBetween | playwright_kakao_posts_today.py:16-17 | a run of class characters between two other characters becomes one `rep` |
| Filenames.ForbiddenRunBecomesUnderscore | playwright_kakao_posts_today.py:16 | a run of forbidden characters between plain characters becomes a single `_` |
| Filenames.SpaceRunBecomesSpace | playwright_kakao_posts_today.py:17 | a run of whitespace between plain characters becomes a single space |
| Filenames.SanitizeMayEndInSpace | playwright_kakao_posts_today.py:17-18 | the cut at 120 comes after the strip, so a result can end in a space |
| Urls.CleanRef | playwright_kakao_posts_today.py:216-217 | the reference `urljoin` works on has no leading control character or space and no tab, carriage return or line feed anywhere |
| Urls.JoinLink | playwright_kakao_posts_today.py:216-217 | the link is never empty; an `href` that cleans to nothing gives the base URL; the link ends with the cleaned `href` and is either under the base URL or the cleaned `href` itself |
| Urls.BlankRefIsBase | src/kakao_scraper.py:273-277 | an `href` of only spaces or control characters, which passes `if not href`, resolves to the site itself |
| Urls.JoinLinkIdempotent | playwright_kakao_posts_today.py:216-217 | resolving an already resolved link gives it back unchanged |
| TodayFilter.PickedItem | playwright_kakao_posts_today.py:203-219 | an appended item has a non-empty stripped title, a stripped date `is_today` accepts, and the joined link |
| TodayFilter.SkippedCards | playwright_kakao_posts_today.py:201-213 | a card without a title, with a blank title, or dated `N일 전` is skipped |
| TodayFilter.KeptMembers | playwright_kakao_posts_today.py:196-219 | an item is kept exactly when some card's decision yields it |
| TodayFilter.QualifyingMembers | playwright_kakao_posts_today.py:196-219 | an item is collected exactly when some card yields it |
| TodayFilter.KeptPrefix | playwright_kakao_posts_today.py:196-219 | the items of the first cards are a prefix of all the items |
| TodayFilter.CollectTodayItemsAsWritten | playwright_kakao_posts_today.py:196-221 | the loop as written returns the first `max(max_today, 1)` qualifying items, in page order |
| TodayFilter.MaxTodayZeroStillYieldsOne | playwright_kakao_posts_today.py:218-221 | with `max_today <= 0` and a qualifying card, the loop as written still returns one item |
| TodayFilter.CollectTodayItems | playwright_kakao_posts_today.py:196-221 | with the limit checked before each append: the first `max_today` qualifying items, in page order; none when `max_today <= 0`; each one comes from a card |
| Messages.Field | src/runner.py:12-14 | a missing or `None` value reads as the empty string, and every field is stripped |
| Messages.HeadLine | src/runner.py:16 | the first line is `📌 title`, or exactly `📌` with no trailing space when the title is empty |
| Messages.SectionsLayout | src/runner.py:16-20 | the title line comes first; the text is a section exactly when it is non-empty; the last section is `🔗 url` exactly when the URL is non-empty |
| Messages.MessageIsJoinedSections | src/runner.py:16-21 | the message is its sections joined by blank lines |
| Messages.MessageStartsWithPin | src/runner.py:16 | every message starts with `📌`; after an empty title it is followed by nothing or by a newline |
| Messages.MessageEndsWithLink | src/runner.py:19-21 | with a URL, the message ends with a blank line and `🔗 url` |
| Messages.MessageUsesStrippedFields | src/runner.py:12-14 | a missing key, `None`, an empty or a blank value give the same message, and surrounding whitespace changes nothing |
| Messages.MessageExample | src/telegram_command_bot.py:18-23 | title `T`, no text and URL `u` give `📌 T`, a blank line and `🔗 u` |
| Messages.PhotoBatches | src/runner.py:42-43 | the batches concatenate to the downloaded list, each holds 1 to 10 photos, all but the last exactly 10, there are ⌈n/10⌉ of them, and none for an empty list |
| Messages.SendBatches | src/runner.py:42-43 | one media group per batch, in batch order, after the deliveries already made, which stay untouched; the photos sent are those already sent followed by all batches' photos |
| Messages.Dispatch | src/telegram_command_bot.py:38-43 | the text goes out, first, exactly for `full` and `text`; the photos go out, in order and in albums of at most 10, exactly for `full` and `image`; any other mode sends nothing |
| Messages.RunnerModeFacts | src/runner.py:28 | an unset `MODE` means `full`; the mode is stripped and lower-cased, so normalising again changes nothing |
| Messages.CommandMode | src/telegram_command_bot.py:79-107 | `/menu` and a scheduled `/send` send text and photos, `/preview` only text, `/image` only photos |
| Delay.Distance | src/time_utils.py:30-33 | the wait is more than zero and at most one day, and lands on the target time of day |
| Delay.DistanceIsUnique | src/time_utils.py:30-33 | that wait is the only positive step of at most a day that lands on the target |
| Delay.SecondsUntil | src/time_utils.py:35 | the seconds are the wait truncated to whole seconds, at most 86400 |
| Delay.ParseDelayArg | src/time_utils.py:10-35 | it fails exactly when the stripped argument is not all digits and is not a clock in range; `Invalid arg` exactly when it is neither form; an all-digit argument gives its decimal value; an in-range `H:MM` or `HH:MM` gives the seconds until that time, at most 86400 (an all-digit argument beyond Python's digit limit is not modelled, see below) |
| Delay.ParseIgnoresSurroundingSpace | src/time_utils.py:16 | surrounding whitespace is ignored |
| Delay.SecondsRoundTrip | src/time_utils.py:18-19 | an all-digit argument gives back its number unchanged (within Python's digit limit, see below) |
| Delay.ClockTextRoundTrip | src/time_utils.py:21-26 | `HH:MM` is a clock, not a number of seconds, and reads back as its hour and minute |
| Delay.ClockArgument | src/time_utils.py:25-35 | a valid `HH:MM` gives the seconds until its next occurrence |
| Delay.ClockOneDigit | src/time_utils.py:21-35 | a valid one-digit-hour `H:MM` such as `9:05` gives the seconds until its next occurrence |
| Delay.PaddedSeconds | src/time_utils.py:18-19 | seconds written with any number of leading zeros give the number they pad |
| Delay.SevenSecondsPadded | src/time_utils.py:18-19 | `007` is seven seconds |
| Delay.ClockOutOfRange | src/time_utils.py:27-28 | an hour above 23 or a minute above 59 is `Invalid time` |
| Delay.MalformedArgument | src/time_utils.py:21-23 | a blank argument, or one with a character that is neither a digit nor `:`, is `Invalid arg` |
| Delay.FullDayAtTarget | src/time_utils.py:32-33 | at exactly the target time the wait is a full day, 86400 seconds |
| Delay.WholeSecondNowIsExact | src/time_utils.py:35 | when now is a whole second nothing is truncated: the seconds are exactly the wait |

## Left out

- Browser work (Playwright) is not modelled: page loads, waits, scrolling and locator queries. The DOM becomes input records: `Card`, `FeedCard`, the `src`/`style` lists of `ImageCandidates`.
- Network and file I/O are not modelled: `requests`, `download_file`, `src/telegram_sender.py`, file writes and `os.makedirs`. The download loop's `img_NN` naming and its per-image error skipping are left out too. The model keeps only the extension decision.
- The Telegram bot layer is not modelled: the handlers, `job_queue.run_once`, `run_polling` and the reply texts. `CommandMode` records only which mode each command passes on.
- `src/config.py` is not part of this model.
- The standalone script's output is not modelled: the printing, the `content.txt` writing, and its detail-page visit loop (playwright_kakao_posts_today.py:223-268).
- The clock is a parameter.
  - The classifiers take a reference `Date`.
  - `parse_delay_arg` takes the time of day in microseconds, which makes the truncation of `total_seconds()` explicit.
  - Korea Standard Time has no daylight saving, so a day is always 86400 seconds.
  - The floating-point `total_seconds()` is read as an exact quotient. A wait of fewer than 86400·10⁶ microseconds divided by 10⁶ is never rounded up to the next integer in binary floating point.
- `_pick_today_post_link` (src/kakao_scraper.py:52-89) is not modelled, because `scrape_today_post` never calls it.
- Urls.JoinLink: `urljoin(BASE, href)`, and `urljoin(base_url, href)` in src/kakao_scraper.py, are modelled for an empty `href`, a root path and an absolute URL only, after `urlsplit`'s strip of leading control characters and spaces and its removal of tab, carriage return and line feed. Protocol-relative, query-only, fragment-only and relative-path references, and dot-segment removal, are not modelled. Neither is `urlunsplit` dropping an empty `?`, `#` or `;` (`/x?` gives the base plus `/x` in Python but the base plus `/x?` here, so "ends with the cleaned `href`" holds only for references without such an empty part), nor the lower-casing of the scheme of an absolute URL.
- Images.GuessExt: `urlparse(url).path` is not modelled. The model takes the path as its input.
- Images.SplitExt: models the POSIX `os.path.splitext`; the Windows separator rules of `ntpath` are not modelled.
- Text.DecimalValue: Python's `\d` and `int()` accept every Unicode decimal digit; the model accepts ASCII `0`-`9` only (also in `DateLabels.DateAt`, `DateLabels.CountAgo` and `Delay.ParseDelayArg`).
- Delay.ParseDelayArg: since Python 3.11, `int()` raises `ValueError` on a decimal string longer than 4300 digits (the default of `sys.set_int_max_str_digits`). `parse_delay_arg` then raises on such an argument, where the model returns `Success`. The limit is an interpreter setting, and a Telegram message of at most 4096 characters cannot carry such an argument.
- Delay.SecondsRoundTrip: holds only up to that 4300-digit limit; beyond it Python's `int(arg)` raises instead of giving the number back.
- Text.DecimalRoundTrip: holds only up to that 4300-digit limit; beyond it Python's `str(n)` and `int()` raise.
- Text.Lower: only `A`-`Z` are lowered. Python's full lowering never produces the ASCII words compared against (`png`, `webp`, `jpeg`, `full`, …) from other characters, so every decision that depends on it agrees.
- Messages.Dispatch: assumes each send succeeds. In the code, an HTTP error from `raise_for_status` aborts the remaining sends.

## Findings

| source | as written | input that shows it | evidently intended | confidence | as-written member | corrected member |
|---|---|---|---|---|---|---|
| playwright_kakao_posts_today.py:219-221 | `len(today_items) >= args.max_today` is checked only after an append, so at least one item is always kept | `--max-today 0` (or negative) with one card dated `방금` | `--max-today N` keeps at most N items, so none for 0 or less | medium, not executed | TodayFilter.CollectTodayItemsAsWritten, TodayFilter.MaxTodayZeroStillYieldsOne | TodayFilter.CollectTodayItems |

=== FILE: card_selection.dfy ===
/** `pick_best_post_link` in src/kakao_scraper.py: from the cards of a
    channel's post list, pick one post link, preferring a card whose date
    label reads as today, then a pinned card, then the first (latest) card.
    The page is replaced by the sequence of cards it shows, each reduced to
    what the selector queries return for it. */
module CardSelection {
  import opened Wrappers
  import opened Text
  import opened DateLabels
  import opened Urls

  /** An `<a>` element; `href` is `None` when the attribute is absent. */
  datatype Anchor = Anchor(href: Option<string>)

  /** One `.area_card`: the first `a.link_title` and `a.link_board` anchors,
      the inner text of the first date element and of the first pin icon
      (`None` when the element is absent). */
  datatype Card = Card(
    titleAnchor: Option<Anchor>,
    boardAnchor: Option<Anchor>,
    dateText: Option<string>,
    pinText: Option<string>)

  /** The anchor the code reads: `a.link_title` when there is one, otherwise
      `a.link_board`. */
  function CardAnchor(c: Card): (a: Option<Anchor>)
    ensures c.titleAnchor.Some? ==> a == c.titleAnchor
    ensures c.titleAnchor.None? ==> a == c.boardAnchor
    ensures a.None? <==> c.titleAnchor.None? && c.boardAnchor.None?
  {
    if c.titleAnchor.Some? then c.titleAnchor else c.boardAnchor
  }

  /** The card has a usable link: an anchor whose `href` is present and not
      empty. Other cards are skipped. */
  predicate Linked(c: Card) {
    var a := CardAnchor(c);
    a.Some? && a.value.href.Some? && a.value.href.value != ""
  }

  /** The link of a linked card: its `href` resolved with `urljoin`
      against the channel site. */
  function Link(c: Card): (u: string)
    requires Linked(c)
    ensures u != ""
  {
    JoinLink(CardAnchor(c).value.href.value)
  }

  /** The date label, stripped, reads as today (`_is_today_label`). */
  predicate TodayCard(c: Card, today: Date) {
    IsTodayLabel(Strip(c.dateText.GetOr("")), today)
  }

  /** The pin icon's stripped text contains `고정`. */
  predicate PinnedCard(c: Card) {
    c.pinText.Some? && Contains(Strip(c.pinText.value), "고정")
  }

  /** What the scan reads from a card it keeps: the link and whether the
      card reads as today and as pinned. */
  datatype Entry = Entry(link: string, isToday: bool, isPinned: bool)

  /** One iteration of the scan: `None` for a card it skips. */
  function Read(c: Card, today: Date): (e: Option<Entry>)
    ensures e.Some? <==> Linked(c)
    ensures e.Some? ==> e.value.link == Link(c) && e.value.link != ""
  {
    if Linked(c) then Some(Entry(Link(c), TodayCard(c, today), PinnedCard(c))) else None
  }

  /** The cards as the scan reads them. */
  function Entries(cards: seq<Card>, today: Date): (es: seq<Option<Entry>>)
    ensures |es| == |cards|
    ensures forall i :: 0 <= i < |cards| ==> es[i] == Read(cards[i], today)
  {
    seq(|cards|, i requires 0 <= i < |cards| => Read(cards[i], today))
  }

  /** The three candidate lists of the scan. */
  datatype Bucket = TodayBucket | PinnedBucket | AnyBucket

  predicate InBucket(e: Option<Entry>, b: Bucket) {
    e.Some? &&
    match b
    case TodayBucket => e.value.isToday
    case PinnedBucket => e.value.isPinned
    case AnyBucket => true
  }

  /** Reference definition of a candidate list: the links of the entries in
      the bucket, in card order. */
  function Links(es: seq<Option<Entry>>, b: Bucket): seq<string>
    decreases |es|
  {
    if |es| == 0 then []
    else
      var last := es[|es| - 1];
      Links(es[..|es| - 1], b) + (if InBucket(last, b) then [last.value.link] else [])
  }

  /** Entry `i` is the first one in bucket `b`. */
  predicate FirstIn(es: seq<Option<Entry>>, b: Bucket, i: int) {
    && 0 <= i < |es|
    && InBucket(es[i], b)
    && forall j :: 0 <= j < i ==> !InBucket(es[j], b)
  }

  predicate Occupied(es: seq<Option<Entry>>, b: Bucket) {
    exists i :: 0 <= i < |es| && InBucket(es[i], b)
  }

  /** A candidate list is empty exactly when no entry is in its bucket, and
      otherwise starts with the link of the first such entry. */
  lemma {:induction false} LinksHead(es: seq<Option<Entry>>, b: Bucket) returns (i: int)
    ensures |Links(es, b)| == 0 <==> !Occupied(es, b)
    ensures |Links(es, b)| > 0 ==> FirstIn(es, b, i) && Links(es, b)[0] == es[i].value.link
    decreases |es|
  {
    if |es| == 0 {
      i := 0;
    } else {
      var n := |es| - 1;
      var init := es[..n];
      var k := LinksHead(init, b);
      assert forall j :: 0 <= j < n ==> init[j] == es[j];
      if |Links(init, b)| > 0 {
        i := k;
      } else {
        i := n;
      }
    }
  }

  /** A link is in a candidate list exactly when some entry of the bucket has it. */
  lemma {:induction false} LinksMembers(es: seq<Option<Entry>>, b: Bucket, u: string)
    ensures u in Links(es, b) <==> exists i :: 0 <= i < |es| && InBucket(es[i], b) && es[i].value.link == u
    decreases |es|
  {
    if |es| > 0 {
      var init := es[..|es| - 1];
      LinksMembers(init, b, u);
      assert forall j :: 0 <= j < |init| ==> init[j] == es[j];
    }
  }

  /** The `href` the scan takes from a card, read off the anchors: the
      title anchor's when the card has one, else the board anchor's. */
  predicate HrefOf(c: Card, u: string) {
    || (c.titleAnchor.Some? && c.titleAnchor.value.href == Some(u))
    || (c.titleAnchor.None? && c.boardAnchor.Some? && c.boardAnchor.value.href == Some(u))
  }

  /** The `any` list holds exactly the resolved non-empty `href`s the
      anchors give: a board anchor counts only on a card without a title
      anchor, so a title anchor without `href` drops the card even when its
      board anchor has one. */
  lemma AnyLinksFromAnchors(cards: seq<Card>, today: Date, u: string)
    ensures u in Links(Entries(cards, today), AnyBucket) <==>
      exists i, h :: 0 <= i < |cards| && h != "" && HrefOf(cards[i], h) && u == JoinLink(h)
  {
    var es := Entries(cards, today);
    LinksMembers(es, AnyBucket, u);
    if u in Links(es, AnyBucket) {
      var i :| 0 <= i < |es| && InBucket(es[i], AnyBucket) && es[i].value.link == u;
      var h := ReadNeedsHref(cards[i], today);
    }
    if exists i, h :: 0 <= i < |cards| && h != "" && HrefOf(cards[i], h) && u == JoinLink(h) {
      var i, h :| 0 <= i < |cards| && h != "" && HrefOf(cards[i], h) && u == JoinLink(h);
      ReadGivesHref(cards[i], today, h);
      assert InBucket(es[i], AnyBucket) && es[i].value.link == u;
    }
  }

  /** A card whose anchors give a non-empty `href` is kept, with that
      `href` resolved as its link. */
  lemma ReadGivesHref(c: Card, today: Date, h: string)
    requires h != "" && HrefOf(c, h)
    ensures Read(c, today).Some? && Read(c, today).value.link == JoinLink(h)
  {
  }

  /** A kept card's link is the resolved non-empty `href` of its anchors. */
  lemma ReadNeedsHref(c: Card, today: Date) returns (h: string)
    requires Read(c, today).Some?
    ensures h != "" && HrefOf(c, h) && Read(c, today).value.link == JoinLink(h)
  {
    h := CardAnchor(c).value.href.value;
  }

  /** The scan over the cards: one pass that appends each usable link to
      the `any` list and, when the card qualifies, to the `today` and
      `pinned` lists. */
  method CollectCandidates(cards: seq<Card>, today: Date)
    returns (todayLinks: seq<string>, pinnedLinks: seq<string>, anyLinks: seq<string>)
    ensures todayLinks == Links(Entries(cards, today), TodayBucket)
    ensures pinnedLinks == Links(Entries(cards, today), PinnedBucket)
    ensures anyLinks == Links(Entries(cards, today), AnyBucket)
  {
    var es := Entries(cards, today);
    todayLinks, pinnedLinks, anyLinks := [], [], [];
    var i := 0;
    while i < |cards|
      invariant 0 <= i <= |cards|
      invariant todayLinks == Links(es[..i], TodayBucket)
      invariant pinnedLinks == Links(es[..i], PinnedBucket)
      invariant anyLinks == Links(es[..i], AnyBucket)
    {
      var c := cards[i];
      assert es[..i + 1][..i] == es[..i];
      if Linked(c) {
        var u := Link(c);
        anyLinks := anyLinks + [u];
        if TodayCard(c, today) {
          todayLinks := todayLinks + [u];
        }
        if PinnedCard(c) {
          pinnedLinks := pinnedLinks + [u];
        }
      }
      i := i + 1;
    }
    assert es[..|cards|] == es;
  }

  /** Why a link was chosen; `Tag` is the string the code returns. */
  datatype Reason = Today | Pinned | Latest | NoneFound {
    function Tag(): string {
      match this
      case Today => "today"
      case Pinned => "pinned"
      case Latest => "latest"
      case NoneFound => "none"
    }
  }

  /** The priority rule: the first today card, else the first pinned card,
      else the first usable card, else nothing. */
  method PickBestPostLink(cards: seq<Card>, today: Date) returns (link: Option<string>, reason: Reason)
    ensures var es := Entries(cards, today);
      && (reason == Today <==> Occupied(es, TodayBucket))
      && (reason == Pinned <==> !Occupied(es, TodayBucket) && Occupied(es, PinnedBucket))
      && (reason == Latest <==> !Occupied(es, TodayBucket) && !Occupied(es, PinnedBucket) && Occupied(es, AnyBucket))
      && (reason == Today ==> exists i :: FirstIn(es, TodayBucket, i) && link == Some(Link(cards[i])))
      && (reason == Pinned ==> exists i :: FirstIn(es, PinnedBucket, i) && link == Some(Link(cards[i])))
      && (reason == Latest ==> exists i :: FirstIn(es, AnyBucket, i) && link == Some(Link(cards[i])))
    ensures link.None? <==> reason == NoneFound
    ensures link.None? <==> forall i :: 0 <= i < |cards| ==> !Linked(cards[i])
    ensures link.Some? ==> exists i :: 0 <= i < |cards| && Linked(cards[i]) && link.value == Link(cards[i])
  {
    var es := Entries(cards, today);
    var todayLinks, pinnedLinks, anyLinks := CollectCandidates(cards, today);
    var t := LinksHead(es, TodayBucket);
    var p := LinksHead(es, PinnedBucket);
    var a := LinksHead(es, AnyBucket);
    if |todayLinks| > 0 {
      link, reason := Some(todayLinks[0]), Today;
    } else if |pinnedLinks| > 0 {
      link, reason := Some(pinnedLinks[0]), Pinned;
    } else if |anyLinks| > 0 {
      link, reason := Some(anyLinks[0]), Latest;
    } else {
      link, reason := None, NoneFound;
    }
  }

  /** The scrape's failure when the list yields no link at all. */
  datatype ScrapeError = NoPostLink

  /** The start of `scrape_today_post`: the chosen link, or the error raised
      when there is none. */
  method SelectPostLink(cards: seq<Card>, today: Date) returns (r: Result<string, ScrapeError>)
    ensures r.Failure? <==> forall i :: 0 <= i < |cards| ==> !Linked(cards[i])
    ensures r.Success? ==> exists i :: 0 <= i < |cards| && Linked(cards[i]) && r.value == Link(cards[i])
  {
    var link, reason := PickBestPostLink(cards, today);
    if link.None? {
      r := Failure(NoPostLink);
    } else {
      r := Success(link.value);
    }
  }
}

=== FILE: date_labels.dfy ===
/** The three independent "is this feed date label today?" classifiers.
    They disagree with each other on purpose-free details, so each one is
    modelled on its own:
      - `IsTodayLike`  : `_is_today_like`  in src/kakao_scraper.py
      - `IsTodayLabel` : `_is_today_label` in src/kakao_scraper.py
      - `IsToday`      : `is_today`        in playwright_kakao_posts_today.py
    The wall clock (`datetime.now(KST)`) becomes an explicit reference date. */
module DateLabels {
  import opened Wrappers
  import opened Text

  /** A calendar date as year, month and day numbers. */
  datatype Date = Date(year: int, month: int, day: int)

  // ---------------------------------------------------------------------------
  // Absolute dates `YYYY.MM.DD.`

  /** `re.match(r"(\d{4})\.(\d{2})\.(\d{2})\.", s)`: the date written at the
      very start of `s`, if any. */
  function DateAt(s: string): (r: Option<Date>)
    ensures r.Some? ==> |s| >= 11 && IsDigit(s[0]) && s[4] == '.' && s[7] == '.' && s[10] == '.'
  {
    if && |s| >= 11
       && AllDigits(s[0..4]) && s[4] == '.'
       && AllDigits(s[5..7]) && s[7] == '.'
       && AllDigits(s[8..10]) && s[10] == '.'
    then Some(Date(DecimalValue(s[0..4]), DecimalValue(s[5..7]), DecimalValue(s[8..10])))
    else None
  }

  /** `re.search` with the same pattern: the leftmost date written anywhere in `s`. */
  function SearchDate(s: string): Option<Date>
    decreases |s|
  {
    if |s| == 0 then None
    else if DateAt(s).Some? then DateAt(s)
    else SearchDate(s[1..])
  }

  /** No date is written at any position before `i`. */
  predicate NoDateBefore(s: string, i: int) {
    forall j :: 0 <= j < i && j <= |s| ==> DateAt(s[j..]).None?
  }

  /** The search finds the leftmost written date, and finds nothing only when
      no position of `s` starts a date. */
  lemma {:induction false} SearchDateIsLeftmost(s: string) returns (i: int)
    ensures SearchDate(s).Some? ==> 0 <= i < |s| && DateAt(s[i..]) == SearchDate(s) && NoDateBefore(s, i)
    ensures SearchDate(s).None? ==> NoDateBefore(s, |s|)
    decreases |s|
  {
    if |s| == 0 {
      i := 0;
    } else if DateAt(s).Some? {
      i := 0;
      assert s[0..] == s;
    } else {
      var k := SearchDateIsLeftmost(s[1..]);
      i := k + 1;
      forall j | 0 <= j < |s| && j <= |s| && (SearchDate(s).None? || j < i)
        ensures DateAt(s[j..]).None?
      {
        if j == 0 {
          assert s[0..] == s;
        } else {
          assert s[1..][j - 1..] == s[j..];
        }
      }
      if SearchDate(s).Some? {
        assert s[1..][k..] == s[i..];
      }
    }
  }

  /** A date small enough to be written with `YYYY.MM.DD.`. */
  predicate Writable(d: Date) {
    0 <= d.year <= 9999 && 0 <= d.month <= 99 && 0 <= d.day <= 99
  }

  function Pad4(n: nat): (s: string)
    requires n < 10000
    ensures |s| == 4 && AllDigits(s) && DecimalValue(s) == n
  {
    var hi, lo := Pad2(n / 100), Pad2(n % 100);
    var s := hi + lo;
    assert s[..3] == hi + lo[..1];
    assert s[..3][..2] == hi;
    assert DecimalValue(s[..3]) == 10 * DecimalValue(hi) + DigitValue(lo[0]);
    assert lo[..1][..0] == [];
    assert DecimalValue(lo) == 10 * DigitValue(lo[0]) + DigitValue(lo[1]);
    s
  }

  /** The label text the feed shows for a date, `YYYY.MM.DD.`. */
  function DateLabel(d: Date): (s: string)
    requires Writable(d)
    ensures |s| == 11 && IsStripped(s)
  {
    Pad4(d.year) + "." + Pad2(d.month) + "." + Pad2(d.day) + "."
  }

  /** Reading back a written date gives the date, whatever follows it. */
  lemma DateLabelRoundTrip(d: Date, rest: string)
    requires Writable(d)
    ensures DateAt(DateLabel(d) + rest) == Some(d)
  {
    var s := DateLabel(d) + rest;
    assert s[0..4] == Pad4(d.year);
    assert s[5..7] == Pad2(d.month);
    assert s[8..10] == Pad2(d.day);
  }

  // ---------------------------------------------------------------------------
  // Relative labels `N분 전`, `N시간 전`

  /** `\s*<unit>\s*전` starting at index `i` of `s`. The unit and `전` do
      not start with whitespace, so the greedy `\s*` runs are forced. */
  predicate UnitAgoFrom(s: string, unit: string, i: int)
    requires 0 <= i <= |s|
  {
    var k := SkipSpaces(s, i);
    OccursAt(s, unit, k) && var m := SkipSpaces(s, k + |unit|); m < |s| && s[m] == '전'
  }

  /** The scan for `\d+\s*<unit>\s*전` from index `i`: some digit directly
      followed by the unit phrase (the last digit of a run is enough for `\d+`). */
  predicate CountAgoFrom(s: string, unit: string, i: int)
    requires 0 <= i <= |s|
    decreases |s| - i
  {
    i < |s| && ((IsDigit(s[i]) && UnitAgoFrom(s, unit, i + 1)) || CountAgoFrom(s, unit, i + 1))
  }

  /** `re.search(r"\d+\s*<unit>\s*전", s)` succeeds. */
  predicate CountAgo(s: string, unit: string) {
    CountAgoFrom(s, unit, 0)
  }

  predicate DigitsBetween(s: string, a: int, b: int) {
    0 <= a <= b <= |s| && forall x :: a <= x < b ==> IsDigit(s[x])
  }

  predicate SpacesBetween(s: string, a: int, b: int) {
    0 <= a <= b <= |s| && forall x :: a <= x < b ==> IsSpace(s[x])
  }

  /** The regular expression read positionally: digits `s[i..j]` (at least
      one), whitespace `s[j..k]`, the unit at `k`, whitespace up to `m`, and
      `전` at `m`. */
  predicate CountAgoMatch(s: string, unit: string, i: int, j: int, k: int, m: int) {
    && i < j
    && DigitsBetween(s, i, j)
    && SpacesBetween(s, j, k)
    && OccursAt(s, unit, k)
    && SpacesBetween(s, k + |unit|, m)
    && m < |s| && s[m] == '전'
  }

  lemma {:induction false} CountAgoFromHasMatch(s: string, unit: string, i0: int)
    returns (i: int, j: int, k: int, m: int)
    requires 0 <= i0 <= |s| && CountAgoFrom(s, unit, i0)
    ensures i0 <= i && CountAgoMatch(s, unit, i, j, k, m)
    decreases |s| - i0
  {
    if IsDigit(s[i0]) && UnitAgoFrom(s, unit, i0 + 1) {
      i, j := i0, i0 + 1;
      k := SkipSpaces(s, j);
      m := SkipSpaces(s, k + |unit|);
    } else {
      i, j, k, m := CountAgoFromHasMatch(s, unit, i0 + 1);
    }
  }

  /** A positional match whose digit run ends at `j` is found by the scan
      from any index up to its last digit. */
  lemma {:induction false} MatchFoundFrom(s: string, unit: string, i0: int, i: int, j: int, k: int, m: int)
    requires |unit| > 0 && !IsSpace(unit[0])
    requires CountAgoMatch(s, unit, i, j, k, m)
    requires 0 <= i0 <= j - 1
    ensures CountAgoFrom(s, unit, i0)
    decreases j - 1 - i0
  {
    if i0 < j - 1 {
      MatchFoundFrom(s, unit, i0 + 1, i, j, k, m);
    } else {
      assert s[k] == unit[0];
      assert SkipSpaces(s, j) == k;
      assert SkipSpaces(s, k + |unit|) == m;
    }
  }

  /** The scan decides exactly the regular expression `\d+\s*<unit>\s*전`. */
  lemma CountAgoIffMatch(s: string, unit: string)
    requires |unit| > 0 && !IsSpace(unit[0])
    ensures CountAgo(s, unit) <==> exists i, j, k, m :: CountAgoMatch(s, unit, i, j, k, m)
  {
    if CountAgo(s, unit) {
      var i, j, k, m := CountAgoFromHasMatch(s, unit, 0);
    }
    forall i, j, k, m | CountAgoMatch(s, unit, i, j, k, m) ensures CountAgo(s, unit) {
      MatchFoundFrom(s, unit, 0, i, j, k, m);
    }
  }

  /** A relative label needs a digit, the whole unit and `전`. */
  lemma CountAgoNeedsDigitAndUnit(s: string, unit: string)
    requires |unit| > 0 && CountAgo(s, unit)
    ensures exists i :: 0 <= i < |s| && IsDigit(s[i])
    ensures Contains(s, unit) && unit[0] in s
    ensures '전' in s
  {
    var i, j, k, m := CountAgoFromHasMatch(s, unit, 0);
    assert IsDigit(s[i]);
    OccursImpliesContains(s, unit, k);
    assert s[k] == unit[0];
    assert s[m] == '전';
  }

  // ---------------------------------------------------------------------------
  // The three classifiers

  /** `_is_today_like` (src/kakao_scraper.py): after stripping, a non-empty
      label that contains `방금`, `<digits>분 전`, `<digits>시간 전` (spaces
      optional around the unit) or `오늘`. Absolute dates are never today here. */
  predicate IsTodayLike(dateText: string) {
    var t := Strip(dateText);
    t != "" && (Contains(t, "방금") || CountAgo(t, "분") || CountAgo(t, "시간") || Contains(t, "오늘"))
  }

  /** `_is_today_label` (src/kakao_scraper.py): `분 전` or `시간 전` anywhere,
      or exactly `방금`; otherwise a leading `YYYY.MM.DD.` equal to `today`. */
  predicate IsTodayLabel(dateText: string, today: Date) {
    var t := Strip(dateText);
    if Contains(t, "분 전") || Contains(t, "시간 전") || t == "방금" then true
    else
      match DateAt(t)
      case Some(d) => d == today
      case None => false
  }

  /** The relative-recency words `is_today` tests first. */
  predicate HasRecencyWord(t: string) {
    Contains(t, "방금") || Contains(t, "분 전") || Contains(t, "시간 전") || Contains(t, "오늘")
  }

  /** `is_today` (playwright_kakao_posts_today.py): a recency word wins, then
      `일 전` loses, then the leftmost `YYYY.MM.DD.` anywhere decides. */
  predicate IsToday(dateText: string, today: Date) {
    var t := Strip(dateText);
    if HasRecencyWord(t) then true
    else if Contains(t, "일 전") then false
    else
      match SearchDate(t)
      case Some(d) => d == today
      case None => false
  }

  // ---------------------------------------------------------------------------
  // Properties

  /** `_is_today_like` says no to an empty or whitespace-only label. */
  lemma TodayLikeRejectsBlank(dateText: string)
    requires AllSpace(dateText)
    ensures !IsTodayLike(dateText)
  {
    StripEmptyIffBlank(dateText);
  }

  /** An empty or whitespace-only label is not today for any of the three
      classifiers. */
  lemma BlankIsNeverToday(dateText: string, today: Date)
    requires AllSpace(dateText)
    ensures !IsToday(dateText, today) && !IsTodayLabel(dateText, today) && !IsTodayLike(dateText)
  {
    StripEmptyIffBlank(dateText);
    assert Strip(dateText) == "";
    ContainsIffOccurs("", "방금");
    ContainsIffOccurs("", "분 전");
    ContainsIffOccurs("", "시간 전");
    ContainsIffOccurs("", "오늘");
    ContainsIffOccurs("", "일 전");
  }

  /** `_is_today_like` is exactly the four patterns, read positionally on the
      stripped label. */
  lemma TodayLikeIffPatterns(dateText: string)
    ensures var t := Strip(dateText);
      IsTodayLike(dateText) <==>
        && t != ""
        && (|| (exists i :: OccursAt(t, "방금", i))
            || (exists i, j, k, m :: CountAgoMatch(t, "분", i, j, k, m))
            || (exists i, j, k, m :: CountAgoMatch(t, "시간", i, j, k, m))
            || (exists i :: OccursAt(t, "오늘", i)))
  {
    var t := Strip(dateText);
    if IsTodayLike(dateText) {
      if Contains(t, "방금") {
        var i := ContainsImpliesOccurs(t, "방금");
      } else if CountAgo(t, "분") {
        var i, j, k, m := CountAgoFromHasMatch(t, "분", 0);
      } else if CountAgo(t, "시간") {
        var i, j, k, m := CountAgoFromHasMatch(t, "시간", 0);
      } else {
        var i := ContainsImpliesOccurs(t, "오늘");
      }
    } else if t != "" {
      forall i | OccursAt(t, "방금", i) ensures false {
        OccursImpliesContains(t, "방금", i);
      }
      forall i | OccursAt(t, "오늘", i) ensures false {
        OccursImpliesContains(t, "오늘", i);
      }
      CountAgoIffMatch(t, "분");
      CountAgoIffMatch(t, "시간");
    }
  }

  /** `_is_today_like` never takes an absolute date for today, whatever the
      reference date: its decision is left to other code. */
  lemma TodayLikeRejectsAbsoluteDate(d: Date)
    requires Writable(d)
    ensures !IsTodayLike(DateLabel(d))
  {
    var s := DateLabel(d);
    assert forall c :: c in s ==> IsDigit(c) || c == '.';
    NotContainedWithoutFirstChar(s, "방금");
    NotContainedWithoutFirstChar(s, "오늘");
    if CountAgo(s, "분") {
      CountAgoNeedsDigitAndUnit(s, "분");
    }
    if CountAgo(s, "시간") {
      CountAgoNeedsDigitAndUnit(s, "시간");
    }
  }

  /** On an already stripped label, `_is_today_like` reads the label as is. */
  lemma TodayLikeOfStripped(t: string)
    requires IsStripped(t)
    ensures IsTodayLike(t) <==>
      t != "" && (Contains(t, "방금") || CountAgo(t, "분") || CountAgo(t, "시간") || Contains(t, "오늘"))
  {
    StrippedIsFixed(t);
  }

  /** On an already stripped label, `_is_today_label` reads the label as is. */
  lemma TodayLabelOfStripped(t: string, today: Date)
    requires IsStripped(t)
    ensures IsTodayLabel(t, today) <==>
      Contains(t, "분 전") || Contains(t, "시간 전") || t == "방금" || DateAt(t) == Some(today)
  {
    StrippedIsFixed(t);
  }

  /** On an already stripped label, `is_today` reads the label as is. */
  lemma TodayOfStripped(t: string, today: Date)
    requires IsStripped(t)
    ensures IsToday(t, today) <==>
      HasRecencyWord(t) || (!Contains(t, "일 전") && SearchDate(t) == Some(today))
  {
    StrippedIsFixed(t);
  }

  /** A label lacking the unit's first character has no `<digits><unit> 전`. */
  lemma NoCountWithoutUnit(s: string, unit: string)
    requires |unit| > 0 && unit[0] !in s
    ensures !CountAgo(s, unit)
  {
    if CountAgo(s, unit) {
      CountAgoNeedsDigitAndUnit(s, unit);
    }
  }

  /** A label without digits has no `<digits><unit> 전`. */
  lemma NoCountWithoutDigit(s: string, unit: string)
    requires |unit| > 0
    requires forall i :: 0 <= i < |s| ==> !IsDigit(s[i])
    ensures !CountAgo(s, unit)
  {
    if CountAgo(s, unit) {
      CountAgoNeedsDigitAndUnit(s, unit);
    }
  }

  /** `N<suffix>` holds no character outside the digits and `suffix`. */
  lemma AbsentFromCount(n: string, suffix: string, c: char)
    requires AllDigits(n)
    requires !IsDigit(c) && c !in suffix
    ensures c !in n + suffix
  {
    var s := n + suffix;
    forall i | 0 <= i < |s| ensures s[i] != c {
      if i >= |n| {
        assert s[i] == suffix[i - |n|];
      }
    }
  }

  /** `N일 전` is not today for any of the three classifiers. */
  lemma DaysAgoIsNeverToday(n: string, today: Date)
    requires |n| > 0 && AllDigits(n)
    ensures !IsTodayLike(n + "일 전")
    ensures !IsTodayLabel(n + "일 전", today)
    ensures !IsToday(n + "일 전", today)
  {
    var s := n + "일 전";
    AbsentFromCount(n, "일 전", '방');
    AbsentFromCount(n, "일 전", '오');
    AbsentFromCount(n, "일 전", '분');
    AbsentFromCount(n, "일 전", '시');
    AbsentFromCount(n, "일 전", '.');
    NotContainedWithoutFirstChar(s, "방금");
    NotContainedWithoutFirstChar(s, "오늘");
    NotContainedWithoutFirstChar(s, "분 전");
    NotContainedWithoutFirstChar(s, "시간 전");
    NoCountWithoutUnit(s, "분");
    NoCountWithoutUnit(s, "시간");
    SuffixIsContained(n, "일 전");
    assert IsStripped(s);
    TodayLikeOfStripped(s);
    TodayLabelOfStripped(s, today);
    TodayOfStripped(s, today);
  }

  /** `N<unit> 전` is matched by `\d+\s*<unit>\s*전`. */
  lemma CountPhraseIsCount(n: string, unit: string)
    requires |n| > 0 && AllDigits(n)
    requires |unit| > 0 && !IsSpace(unit[0])
    ensures CountAgo(n + unit + " 전", unit)
  {
    var s := n + unit + " 전";
    var j := |n|;
    assert CountAgoMatch(s, unit, j - 1, j, j, j + |unit| + 1) by {
      assert s[j - 1] == n[j - 1];
      assert s[j + |unit|] == ' ';
      assert s[j + |unit| + 1] == '전';
      assert forall x :: 0 <= x < |unit| ==> s[j + x] == unit[x];
    }
    CountAgoIffMatch(s, unit);
  }

  /** `N분 전` and `N시간 전` are today for all three classifiers. */
  lemma CountAgoIsAlwaysToday(n: string, unit: string, today: Date)
    requires |n| > 0 && AllDigits(n)
    requires unit == "분" || unit == "시간"
    ensures IsTodayLike(n + unit + " 전")
    ensures IsTodayLabel(n + unit + " 전", today)
    ensures IsToday(n + unit + " 전", today)
  {
    var s := n + unit + " 전";
    CountPhraseIsCount(n, unit);
    assert s == n + (unit + " 전");
    SuffixIsContained(n, unit + " 전");
    if unit == "분" {
      assert unit + " 전" == "분 전";
    } else {
      assert unit + " 전" == "시간 전";
    }
    assert IsStripped(s);
    TodayLikeOfStripped(s);
    TodayLabelOfStripped(s, today);
    TodayOfStripped(s, today);
  }

  /** `오늘` is today for `is_today` and `_is_today_like`, but not for
      `_is_today_label`, which knows only `방금` and the two counts. */
  lemma TodayWordSplitsClassifiers(today: Date)
    ensures IsToday("오늘", today) && IsTodayLike("오늘") && !IsTodayLabel("오늘", today)
  {
    var s := "오늘";
    assert Contains(s, "오늘") by {
      PrefixIsContained(s, "");
      assert s + "" == s;
    }
    NotContainedWithoutFirstChar(s, "분 전");
    NotContainedWithoutFirstChar(s, "시간 전");
    assert DateAt(s).None?;
    TodayLikeOfStripped(s);
    TodayLabelOfStripped(s, today);
    TodayOfStripped(s, today);
  }

  /** `방금 전` passes `_is_today_like`, but `_is_today_label` wants exactly `방금`. */
  lemma JustNowPhraseSplitsClassifiers(today: Date)
    ensures IsTodayLike("방금 전") && !IsTodayLabel("방금 전", today)
  {
    var s := "방금 전";
    assert Contains(s, "방금") by {
      PrefixIsContained("방금", " 전");
      assert "방금" + " 전" == s;
    }
    NotContainedWithoutFirstChar(s, "분 전");
    NotContainedWithoutFirstChar(s, "시간 전");
    assert DateAt(s).None?;
    TodayLikeOfStripped(s);
    TodayLabelOfStripped(s, today);
  }

  /** A count written in words passes `_is_today_label` but not
      `_is_today_like`, which needs digits. */
  lemma WordCountSplitsClassifiers(today: Date)
    ensures IsTodayLabel("몇 분 전", today) && !IsTodayLike("몇 분 전")
  {
    var s := "몇 분 전";
    assert Contains(s, "분 전") by {
      SuffixIsContained("몇 ", "분 전");
      assert "몇 " + "분 전" == s;
    }
    NotContainedWithoutFirstChar(s, "방금");
    NotContainedWithoutFirstChar(s, "오늘");
    NoCountWithoutDigit(s, "분");
    NoCountWithoutDigit(s, "시간");
    TodayLikeOfStripped(s);
    TodayLabelOfStripped(s, today);
  }

  /** A written date holds only digits and dots. */
  lemma DateLabelCharacters(d: Date, c: char)
    requires Writable(d)
    requires !IsDigit(c) && c != '.'
    ensures c !in DateLabel(d)
  {
    var s := DateLabel(d);
    assert s == Pad4(d.year) + "." + Pad2(d.month) + "." + Pad2(d.day) + ".";
    forall i | 0 <= i < |s| ensures s[i] != c {
      if i < 4 {
        assert s[i] == Pad4(d.year)[i];
      } else if 5 <= i < 7 {
        assert s[i] == Pad2(d.month)[i - 5];
      } else if 8 <= i < 10 {
        assert s[i] == Pad2(d.day)[i - 8];
      }
    }
  }

  /** The stripped form of `prefix + rest`, where `prefix` is stripped and
      non-empty, still begins with `prefix`. */
  lemma StripKeepsStrippedPrefix(prefix: string, rest: string) returns (tail: string)
    requires |prefix| > 0 && IsStripped(prefix)
    ensures Strip(prefix + rest) == prefix + tail
    ensures |tail| <= |rest| && tail == rest[..|tail|]
  {
    var s := prefix + rest;
    var r := Strip(s);
    var i := StripIsSlice(s);
    assert !IsSpace(s[0]) && !IsSpace(s[|prefix| - 1]);
    assert i == 0;
    assert |r| >= |prefix|;
    tail := rest[..|r| - |prefix|];
    assert r == s[..|r|] == prefix + tail;
  }

  /** `_is_today_label` on a label that starts with a date and has no relative
      wording after it: today exactly when the date is the reference date. */
  lemma TodayLabelDateRule(d: Date, rest: string, today: Date)
    requires Writable(d)
    requires !Contains(rest, "분 전") && !Contains(rest, "시간 전")
    ensures IsTodayLabel(DateLabel(d) + rest, today) <==> d == today
  {
    var date := DateLabel(d);
    var tail := StripKeepsStrippedPrefix(date, rest);
    var t := date + tail;
    DateLabelCharacters(d, '분');
    DateLabelCharacters(d, '시');
    if Contains(t, "분 전") {
      ContainedPastPrefix(date, tail, "분 전");
      ContainedInSlice(rest, 0, |tail|, "분 전");
    }
    if Contains(t, "시간 전") {
      ContainedPastPrefix(date, tail, "시간 전");
      ContainedInSlice(rest, 0, |tail|, "시간 전");
    }
    DateLabelRoundTrip(d, tail);
    StripIdempotent(DateLabel(d) + rest);
    TodayLabelOfStripped(t, today);
  }

  /** No date starts inside a digit-free prefix. */
  lemma {:induction false} SearchDateSkipsDigitFree(pre: string, s: string)
    requires forall c :: c in pre ==> !IsDigit(c)
    ensures SearchDate(pre + s) == SearchDate(s)
    decreases |pre|
  {
    if |pre| > 0 {
      assert (pre + s)[0] == pre[0];
      assert DateAt(pre + s).None?;
      assert (pre + s)[1..] == pre[1..] + s;
      SearchDateSkipsDigitFree(pre[1..], s);
    } else {
      assert pre + s == s;
    }
  }

  /** `is_today` on an already-stripped label with a date somewhere after a
      digit-free lead-in and no relative wording: today exactly when that
      date is the reference date. */
  lemma TodayDateAnywhereRule(pre: string, d: Date, post: string, today: Date)
    requires Writable(d)
    requires forall c :: c in pre ==> !IsDigit(c)
    requires IsStripped(pre + DateLabel(d) + post)
    requires !HasRecencyWord(pre + DateLabel(d) + post)
    requires !Contains(pre + DateLabel(d) + post, "일 전")
    ensures IsToday(pre + DateLabel(d) + post, today) <==> d == today
  {
    var date := DateLabel(d);
    var dateText := pre + date + post;
    assert dateText == pre + (date + post);
    SearchDateSkipsDigitFree(pre, date + post);
    DateLabelRoundTrip(d, post);
    assert SearchDate(date + post) == Some(d);
    TodayOfStripped(dateText, today);
  }
}

=== FILE: delay.dfy ===
/** `parse_delay_arg` in src/time_utils.py: the argument of `/send` is
    either a number of seconds or a wall-clock time `H:MM` / `HH:MM` in
    Korea Standard Time, which becomes the seconds until its next
    occurrence. The clock is a parameter: the time of day in microseconds,
    the resolution of Python's `datetime`. */
module Delay {
  import opened Wrappers
  import opened Text

  const MicrosPerSecond := 1_000_000
  const SecondsPerDay := 86400
  const MicrosPerDay := 86_400_000_000

  /** The two `ValueError`s: `Invalid arg` for a malformed argument and
      `Invalid time` for an hour or minute out of range. */
  datatype DelayError = InvalidArg | InvalidTime

  /** `re.fullmatch(r"\d+", s)`. */
  predicate IsSeconds(s: string) {
    |s| > 0 && AllDigits(s)
  }

  /** `re.fullmatch(r"(\d{1,2}):(\d{2})", s)`: one or two hour digits, a
      colon, two minute digits. */
  predicate IsClock(s: string) {
    && (|s| == 4 || |s| == 5)
    && s[|s| - 3] == ':'
    && AllDigits(s[..|s| - 3])
    && AllDigits(s[|s| - 2..])
  }

  /** The two groups of a clock argument, as numbers. */
  function ClockHour(s: string): (h: nat)
    requires IsClock(s)
    ensures h < 100
  {
    var hs := s[..|s| - 3];
    assert |hs| == 1 ==> DecimalValue(hs) == DecimalValue(hs[..0]) * 10 + DigitValue(hs[0]);
    assert |hs| == 2 ==> DecimalValue(hs) == DecimalValue(hs[..1]) * 10 + DigitValue(hs[1]);
    assert |hs| == 2 ==> hs[..1][..0] == [];
    DecimalValue(hs)
  }

  function ClockMinute(s: string): (m: nat)
    requires IsClock(s)
    ensures m < 100
  {
    var ms := s[|s| - 2..];
    assert DecimalValue(ms) == DecimalValue(ms[..1]) * 10 + DigitValue(ms[1]);
    assert ms[..1][..0] == [];
    DecimalValue(ms)
  }

  /** The time of day `hh:mm:00.000000`, in microseconds. */
  function ClockMicros(hh: nat, mm: nat): (t: nat)
    requires hh < 24 && mm < 60
    ensures t < MicrosPerDay && t % (60 * MicrosPerSecond) == 0
  {
    (hh * 3600 + mm * 60) * MicrosPerSecond
  }

  /** How far ahead the next occurrence of `target` is: the replaced
      datetime, moved one day on when it is not after now. */
  function Distance(target: nat, now: nat): (d: int)
    requires target < MicrosPerDay && now < MicrosPerDay
    ensures 0 < d <= MicrosPerDay
    ensures (now + d) % MicrosPerDay == target
  {
    if target <= now then target + MicrosPerDay - now else target - now
  }

  /** The next occurrence is the only one within a day: any other positive
      step of at most a day that lands on `target` is the same step. */
  lemma DistanceIsUnique(target: nat, now: nat, e: int)
    requires target < MicrosPerDay && now < MicrosPerDay
    requires 0 < e <= MicrosPerDay && (now + e) % MicrosPerDay == target
    ensures e == Distance(target, now)
  {
    var d := Distance(target, now);
    var q := (now + e) / MicrosPerDay;
    assert now + e == q * MicrosPerDay + target;
    assert 0 <= q <= 1;
    if q == 0 {
      assert target > now;
    } else {
      assert target <= now;
    }
  }

  /** `int((target - now).total_seconds())`: the distance in whole seconds,
      truncated. */
  function SecondsUntil(hh: nat, mm: nat, now: nat): (secs: nat)
    requires hh < 24 && mm < 60 && now < MicrosPerDay
    ensures secs <= SecondsPerDay
    ensures secs * MicrosPerSecond <= Distance(ClockMicros(hh, mm), now) < (secs + 1) * MicrosPerSecond
  {
    Distance(ClockMicros(hh, mm), now) / MicrosPerSecond
  }

  /** `parse_delay_arg(arg)` at time of day `now`. */
  function ParseDelayArg(arg: string, now: nat): (r: Result<nat, DelayError>)
    requires now < MicrosPerDay
    ensures r.Success? ==> IsSeconds(Strip(arg)) || r.value <= SecondsPerDay
    ensures r.Failure? <==> !IsSeconds(Strip(arg)) && (!IsClock(Strip(arg)) || ClockHour(Strip(arg)) > 23 || ClockMinute(Strip(arg)) > 59)
    ensures r == Failure(InvalidArg) <==> !IsSeconds(Strip(arg)) && !IsClock(Strip(arg))
    ensures IsSeconds(Strip(arg)) ==> r == Success(DecimalValue(Strip(arg)))
    ensures var s := Strip(arg);
      !IsSeconds(s) && IsClock(s) && ClockHour(s) <= 23 && ClockMinute(s) <= 59 ==>
        r == Success(SecondsUntil(ClockHour(s), ClockMinute(s), now))
  {
    var s := Strip(arg);
    if IsSeconds(s) then Success(DecimalValue(s))
    else if !IsClock(s) then Failure(InvalidArg)
    else
      var hh, mm := ClockHour(s), ClockMinute(s);
      if !(hh <= 23 && mm <= 59) then Failure(InvalidTime)
      else Success(SecondsUntil(hh, mm, now))
  }

  // ---------------------------------------------------------------------------
  // Properties

  /** Surrounding whitespace is ignored. */
  lemma ParseIgnoresSurroundingSpace(arg: string, now: nat)
    requires now < MicrosPerDay
    ensures ParseDelayArg(arg, now) == ParseDelayArg(Strip(arg), now)
  {
    StripIdempotent(arg);
  }

  /** A number of seconds comes back unchanged: `str(n)` parses to `n`. */
  lemma SecondsRoundTrip(n: nat, now: nat)
    requires now < MicrosPerDay
    ensures ParseDelayArg(Decimal(n), now) == Success(n)
  {
    var s := Decimal(n);
    assert IsStripped(s) by {
      assert IsDigit(s[0]) && IsDigit(s[|s| - 1]);
    }
    StrippedIsFixed(s);
    DecimalRoundTrip(n);
  }

  /** The digits and the colon of `HH:MM`. */
  function ClockText(hh: nat, mm: nat): (s: string)
    requires hh < 100 && mm < 100
    ensures |s| == 5 && IsStripped(s)
  {
    Pad2(hh) + ":" + Pad2(mm)
  }

  /** `HH:MM` is read back as the hour and minute it was written from. */
  lemma ClockTextRoundTrip(hh: nat, mm: nat)
    requires hh < 100 && mm < 100
    ensures var s := ClockText(hh, mm);
      !IsSeconds(s) && IsClock(s) && ClockHour(s) == hh && ClockMinute(s) == mm
  {
    var s := ClockText(hh, mm);
    assert s[..2] == Pad2(hh);
    assert s[3..] == Pad2(mm);
    assert !IsDigit(s[2]);
  }

  /** A valid `HH:MM` gives the seconds until its next occurrence, at most
      one day. */
  lemma ClockArgument(hh: nat, mm: nat, now: nat)
    requires hh < 24 && mm < 60 && now < MicrosPerDay
    ensures ParseDelayArg(ClockText(hh, mm), now) == Success(SecondsUntil(hh, mm, now))
  {
    ClockTextRoundTrip(hh, mm);
    StrippedIsFixed(ClockText(hh, mm));
  }

  /** The one-digit hour form `H:MM` (`9:05`) gives the seconds until the
      next `H:MM` as well. */
  lemma ClockOneDigit(h: nat, mm: nat, now: nat)
    requires h < 10 && mm < 60 && now < MicrosPerDay
    ensures ParseDelayArg([DigitChar(h)] + ":" + Pad2(mm), now) == Success(SecondsUntil(h, mm, now))
  {
    var s := [DigitChar(h)] + ":" + Pad2(mm);
    assert |s| == 4 && s[1] == ':' && !IsDigit(s[1]);
    assert s[..1] == [DigitChar(h)] && s[2..] == Pad2(mm);
    assert DecimalValue(s[..1]) == 10 * DecimalValue(s[..1][..0]) + DigitValue(s[0]);
    assert s[..1][..0] == [];
    assert IsStripped(s);
    StrippedIsFixed(s);
  }

  /** Seconds written with leading zeros (`007`) read as the number they
      pad: `int()` ignores the zeros. */
  lemma PaddedSeconds(z: nat, n: nat, now: nat)
    requires now < MicrosPerDay
    ensures ParseDelayArg(Zeros(z) + Decimal(n), now) == Success(n)
  {
    var d := Decimal(n);
    var s := Zeros(z) + d;
    LeadingZerosValue(z, d);
    DecimalRoundTrip(n);
    assert s[|s| - 1] == d[|d| - 1];
    if z > 0 {
      assert s[0] == '0';
    } else {
      assert s[0] == d[0];
    }
    assert IsStripped(s);
    StrippedIsFixed(s);
    assert IsSeconds(Strip(s)) && DecimalValue(Strip(s)) == n;
  }

  /** `007` is seven seconds. */
  lemma SevenSecondsPadded(now: nat)
    requires now < MicrosPerDay
    ensures ParseDelayArg("007", now) == Success(7)
  {
    PaddedSeconds(2, 7, now);
    assert Zeros(2) + Decimal(7) == "007";
  }

  /** An hour above 23 or a minute above 59 is `Invalid time`. */
  lemma ClockOutOfRange(hh: nat, mm: nat, now: nat)
    requires hh < 100 && mm < 100 && (hh > 23 || mm > 59)
    requires now < MicrosPerDay
    ensures ParseDelayArg(ClockText(hh, mm), now) == Failure(InvalidTime)
  {
    ClockTextRoundTrip(hh, mm);
    StrippedIsFixed(ClockText(hh, mm));
  }

  /** A blank argument, or one with a character other than a digit or the
      colon once stripped, is `Invalid arg`. */
  lemma MalformedArgument(arg: string, now: nat, i: int)
    requires now < MicrosPerDay
    requires AllSpace(arg) || (0 <= i < |Strip(arg)| && !IsDigit(Strip(arg)[i]) && Strip(arg)[i] != ':')
    ensures ParseDelayArg(arg, now) == Failure(InvalidArg)
  {
    StripEmptyIffBlank(arg);
  }

  /** The clock reads exactly the target time: the wait is a full day. */
  lemma FullDayAtTarget(hh: nat, mm: nat)
    requires hh < 24 && mm < 60
    ensures SecondsUntil(hh, mm, ClockMicros(hh, mm)) == SecondsPerDay
  {
  }

  /** When now is a whole second, no truncation happens: the seconds are
      exactly the distance to the next occurrence. */
  lemma WholeSecondNowIsExact(hh: nat, mm: nat, now: nat)
    requires hh < 24 && mm < 60 && now < MicrosPerDay
    requires now % MicrosPerSecond == 0
    ensures SecondsUntil(hh, mm, now) * MicrosPerSecond == Distance(ClockMicros(hh, mm), now)
  {
    var t := ClockMicros(hh, mm);
    assert t % MicrosPerSecond == 0;
    var d := Distance(t, now);
    assert d % MicrosPerSecond == 0;
  }
}

=== FILE: filenames.dfy ===
/** `sanitize_filename` in playwright_kakao_posts_today.py: turn a post
    title into a folder-name fragment. Each `re.sub` over a character class
    with `+` is written out as a run collapse. */
module Filenames {
  import opened Text

  /** The characters Windows forbids in file names, `\ / : * ? " < > |`. */
  predicate Forbidden(c: char) {
    c == '\\' || c == '/' || c == ':' || c == '*' || c == '?' || c == '"' || c == '<' || c == '>' || c == '|'
  }

  /** The two classes the code collapses runs of. */
  datatype CharClass = ForbiddenChars | Whitespace

  predicate InClass(c: char, k: CharClass) {
    match k
    case ForbiddenChars => Forbidden(c)
    case Whitespace => IsSpace(c)
  }

  /** What is left after the run of class characters at the start of `s`. */
  function DropRun(s: string, k: CharClass): (r: string)
    ensures |r| <= |s| && r == s[|s| - |r|..]
    ensures |r| > 0 ==> !InClass(r[0], k)
    ensures forall i :: 0 <= i < |s| - |r| ==> InClass(s[i], k)
    decreases |s|
  {
    if |s| > 0 && InClass(s[0], k) then DropRun(s[1..], k) else s
  }

  /** `re.sub(<class>+, rep, s)`: every maximal run of class characters
      becomes a single `rep`. */
  function Collapse(s: string, k: CharClass, rep: char): (r: string)
    ensures |r| <= |s|
    ensures forall i :: 0 <= i < |r| && InClass(r[i], k) ==> r[i] == rep
    ensures forall i :: 0 <= i < |r| - 1 && InClass(r[i], k) ==> !InClass(r[i + 1], k)
    ensures !Forbidden(rep) && (forall i :: 0 <= i < |s| ==> !Forbidden(s[i])) ==>
      forall i :: 0 <= i < |r| ==> !Forbidden(r[i])
    decreases |s|
  {
    if |s| == 0 then ""
    else if InClass(s[0], k) then
      var rest := DropRun(s, k);
      var tail := Collapse(rest, k, rep);
      [rep] + tail
    else
      var tail := Collapse(s[1..], k, rep);
      [s[0]] + tail
  }

  /** The name length limit. */
  const MaxNameLength := 120

  /** The two substitutions and the strip, before the length cut. */
  function Normalize(s: string): (r: string)
    ensures IsStripped(r)
  {
    Strip(Collapse(Collapse(s, ForbiddenChars, '_'), Whitespace, ' '))
  }

  /** `sanitize_filename`: forbidden runs become `_`, whitespace runs become
      one space, the ends are stripped, and the result is cut to 120
      characters. */
  function Sanitize(s: string): (r: string)
    ensures |r| <= MaxNameLength
  {
    var c := Normalize(s);
    if |c| > MaxNameLength then c[..MaxNameLength] else c
  }

  /** No forbidden character, only plain spaces, never two in a row. */
  predicate SpacedRuns(r: string) {
    && (forall i :: 0 <= i < |r| ==> !Forbidden(r[i]))
    && (forall i :: 0 <= i < |r| && IsSpace(r[i]) ==> r[i] == ' ')
    && (forall i :: 0 <= i < |r| - 1 && IsSpace(r[i]) ==> !IsSpace(r[i + 1]))
  }

  /** What a name is made of after the substitutions and the strip. */
  predicate SafeName(r: string) {
    SpacedRuns(r) && (|r| > 0 ==> !IsSpace(r[0]))
  }

  /** The first substitution leaves no forbidden character. */
  lemma FirstPassDropsForbidden(s: string, a: string)
    requires a == Collapse(s, ForbiddenChars, '_')
    ensures forall i :: 0 <= i < |a| ==> !Forbidden(a[i])
  {
    assert forall i :: 0 <= i < |a| && Forbidden(a[i]) ==> InClass(a[i], ForbiddenChars);
  }

  /** The two substitutions leave no forbidden character and only single
      plain spaces. */
  lemma CollapsedIsSpaced(s: string)
    ensures SpacedRuns(Collapse(Collapse(s, ForbiddenChars, '_'), Whitespace, ' '))
  {
    var a := Collapse(s, ForbiddenChars, '_');
    FirstPassDropsForbidden(s, a);
    var b := Collapse(a, Whitespace, ' ');
    assert !Forbidden(' ');
    assert forall i :: 0 <= i < |b| ==> !Forbidden(b[i]);
    forall i | 0 <= i < |b| && IsSpace(b[i]) ensures b[i] == ' ' {
      assert InClass(b[i], Whitespace);
    }
    forall i | 0 <= i < |b| - 1 && IsSpace(b[i]) ensures !IsSpace(b[i + 1]) {
      assert InClass(b[i], Whitespace);
    }
  }

  lemma SpacedSlice(b: string, i: int, j: int)
    requires SpacedRuns(b) && 0 <= i <= j <= |b|
    ensures SpacedRuns(b[i..j])
  {
    var c := b[i..j];
    assert forall x :: 0 <= x < |c| ==> c[x] == b[i + x];
  }

  lemma NormalizeIsSafe(s: string)
    ensures SafeName(Normalize(s))
  {
    var b := Collapse(Collapse(s, ForbiddenChars, '_'), Whitespace, ' ');
    CollapsedIsSpaced(s);
    var c := Strip(b);
    var i := StripIsSlice(b);
    SpacedSlice(b, i, i + |c|);
  }

  /** The result is safe as a file name: no forbidden character, no leading
      whitespace, only plain single spaces, and at most 120 characters. */
  lemma SanitizeIsSafe(s: string)
    ensures SafeName(Sanitize(s)) && |Sanitize(s)| <= MaxNameLength
  {
    NormalizeIsSafe(s);
    var c := Normalize(s);
    if |c| > MaxNameLength {
      SpacedSlice(c, 0, MaxNameLength);
    }
  }

  /** Collapsing leaves alone a string whose class characters are all `rep`
      and never adjacent. */
  lemma {:induction false} CollapseFixed(s: string, k: CharClass, rep: char)
    requires forall i :: 0 <= i < |s| && InClass(s[i], k) ==> s[i] == rep
    requires forall i :: 0 <= i < |s| - 1 && InClass(s[i], k) ==> !InClass(s[i + 1], k)
    ensures Collapse(s, k, rep) == s
    decreases |s|
  {
    if |s| > 0 {
      var t := s[1..];
      assert forall i :: 0 <= i < |t| ==> t[i] == s[i + 1];
      if InClass(s[0], k) {
        assert |s| > 1 ==> !InClass(s[1], k);
        assert DropRun(s, k) == t by {
          if |t| > 0 {
            assert !InClass(t[0], k);
          }
        }
      }
      CollapseFixed(t, k, rep);
    }
  }

  /** A string with no class character at all is left alone. */
  lemma CollapseWithoutClass(s: string, k: CharClass, rep: char)
    requires forall i :: 0 <= i < |s| ==> !InClass(s[i], k)
    ensures Collapse(s, k, rep) == s
  {
    CollapseFixed(s, k, rep);
  }

  /** A name that is already clean — no forbidden character, single plain
      spaces only, stripped, at most 120 characters — is kept as it is. */
  lemma SanitizeKeepsCleanName(name: string)
    requires |name| <= MaxNameLength && IsStripped(name)
    requires forall i :: 0 <= i < |name| ==> !Forbidden(name[i])
    requires forall i :: 0 <= i < |name| && IsSpace(name[i]) ==> name[i] == ' '
    requires forall i :: 0 <= i < |name| - 1 && IsSpace(name[i]) ==> !IsSpace(name[i + 1])
    ensures Sanitize(name) == name
  {
    CollapseWithoutClass(name, ForbiddenChars, '_');
    CollapseFixed(name, Whitespace, ' ');
    StrippedIsFixed(name);
  }

  /** A whole run of class characters is dropped at once. */
  lemma {:induction false} DropWholeRun(run: string, rest: string, k: CharClass)
    requires forall i :: 0 <= i < |run| ==> InClass(run[i], k)
    requires |rest| > 0 ==> !InClass(rest[0], k)
    ensures DropRun(run + rest, k) == rest
    decreases |run|
  {
    if |run| > 0 {
      assert (run + rest)[1..] == run[1..] + rest;
      DropWholeRun(run[1..], rest, k);
    } else {
      assert run + rest == rest;
    }
  }

  /** A run of class characters between two other characters collapses to
      one `rep`. */
  lemma CollapseRunBetween(x: char, run: string, y: char, k: CharClass, rep: char)
    requires !InClass(x, k) && !InClass(y, k) && |run| > 0
    requires forall i :: 0 <= i < |run| ==> InClass(run[i], k)
    ensures Collapse([x] + run + [y], k, rep) == [x, rep, y]
  {
    var s := [x] + run + [y];
    var t := run + [y];
    DropWholeRun(run, [y], k);
    var last := Collapse([y], k, rep);
    assert last == [y] by {
      assert [y][1..] == [];
    }
    assert Collapse(t, k, rep) == [rep] + last by {
      assert t[0] == run[0];
    }
    assert Collapse(s, k, rep) == [x] + Collapse(t, k, rep) by {
      assert s[1..] == t && s[0] == x;
    }
    assert [x] + ([rep] + last) == [x, rep, y];
  }

  /** The characters of `s` outside the class, in order. */
  function Others(s: string, k: CharClass): (r: string)
    ensures |r| <= |s|
    decreases |s|
  {
    if |s| == 0 then ""
    else (if InClass(s[0], k) then "" else [s[0]]) + Others(s[1..], k)
  }

  /** Dropping a run of class characters drops none of the others. */
  lemma {:induction false} OthersDropRun(s: string, k: CharClass)
    ensures Others(DropRun(s, k), k) == Others(s, k)
    decreases |s|
  {
    if |s| > 0 && InClass(s[0], k) {
      OthersDropRun(s[1..], k);
    }
  }

  /** Collapsing keeps every character outside the class, in order, when the
      replacement is itself in the class: the whitespace pass, whose space
      is whitespace. (`_` is not forbidden, so for the first pass see
      `CollapseKeepsUntouched`.) */
  lemma {:induction false} CollapseKeepsOthers(s: string, k: CharClass, rep: char)
    requires InClass(rep, k)
    ensures Others(Collapse(s, k, rep), k) == Others(s, k)
    decreases |s|
  {
    if |s| > 0 {
      var r := Collapse(s, k, rep);
      if InClass(s[0], k) {
        var rest := DropRun(s, k);
        OthersDropRun(s, k);
        CollapseKeepsOthers(rest, k, rep);
        assert r[1..] == Collapse(rest, k, rep);
      } else {
        CollapseKeepsOthers(s[1..], k, rep);
        assert r[1..] == Collapse(s[1..], k, rep);
      }
    }
  }

  /** The characters of `s` a substitution with `rep` can neither remove nor
      produce: those outside the class and other than `rep`, in order. */
  function Untouched(s: string, k: CharClass, rep: char): (r: string)
    ensures |r| <= |s|
    decreases |s|
  {
    if |s| == 0 then ""
    else (if InClass(s[0], k) || s[0] == rep then "" else [s[0]]) + Untouched(s[1..], k, rep)
  }

  /** Dropping a run of class characters drops none of the untouched ones. */
  lemma {:induction false} UntouchedDropRun(s: string, k: CharClass, rep: char)
    ensures Untouched(DropRun(s, k), k, rep) == Untouched(s, k, rep)
    decreases |s|
  {
    if |s| > 0 && InClass(s[0], k) {
      UntouchedDropRun(s[1..], k, rep);
    }
  }

  /** Whatever the replacement, both passes included: every character outside
      the class and other than `rep` is kept, in order, and no other such
      character appears. */
  lemma {:induction false} CollapseKeepsUntouched(s: string, k: CharClass, rep: char)
    ensures Untouched(Collapse(s, k, rep), k, rep) == Untouched(s, k, rep)
    decreases |s|
  {
    if |s| > 0 {
      var r := Collapse(s, k, rep);
      if InClass(s[0], k) {
        var rest := DropRun(s, k);
        var t := Collapse(rest, k, rep);
        assert Untouched(r, k, rep) == Untouched(t, k, rep) by {
          assert r == [rep] + t;
          assert r[0] == rep && r[1..] == t;
        }
        CollapseKeepsUntouched(rest, k, rep);
        UntouchedDropRun(s, k, rep);
      } else {
        var t := Collapse(s[1..], k, rep);
        var h := if s[0] == rep then "" else [s[0]];
        assert Untouched(r, k, rep) == h + Untouched(t, k, rep) by {
          assert r == [s[0]] + t;
          assert r[0] == s[0] && r[1..] == t;
        }
        CollapseKeepsUntouched(s[1..], k, rep);
      }
    }
  }

  /** A whole run of class characters becomes one `rep`. */
  lemma CollapseRun(run: string, k: CharClass, rep: char)
    requires |run| > 0 && forall i :: 0 <= i < |run| ==> InClass(run[i], k)
    ensures Collapse(run, k, rep) == [rep]
  {
    DropWholeRun(run, "", k);
    assert run + "" == run;
  }

  /** Dropping a run from a concatenation: the run ends inside `a`, or it
      covers all of `a` and goes on into `b`. */
  lemma {:induction false} DropRunAppend(a: string, b: string, k: CharClass)
    ensures DropRun(a + b, k) == if DropRun(a, k) == "" then DropRun(b, k) else DropRun(a, k) + b
    decreases |a|
  {
    if |a| == 0 {
      assert a + b == b;
    } else if InClass(a[0], k) {
      assert (a + b)[1..] == a[1..] + b;
      DropRunAppend(a[1..], b, k);
    }
  }

  /** Sequence algebra for the steps of `CollapseAppend`: a head put in
      front of a concatenation. */
  lemma ConsAppend(x: string, l: string, m: string, u: string, v: string, w: string)
    requires l == x + u && u == v + w && m == x + v
    ensures l == m + w
  {
  }

  /** Collapsing splits at a boundary that no run straddles: where `a` ends
      or `b` starts with a character outside the class. */
  lemma {:induction false} CollapseAppend(a: string, b: string, k: CharClass, rep: char)
    requires |a| == 0 || |b| == 0 || !InClass(a[|a| - 1], k) || !InClass(b[0], k)
    ensures Collapse(a + b, k, rep) == Collapse(a, k, rep) + Collapse(b, k, rep)
    decreases |a|, 1
  {
    if |a| == 0 {
      assert a + b == b;
    } else if !InClass(a[0], k) {
      CollapseAppendOther(a, b, k, rep);
    } else {
      CollapseAppendRun(a, b, k, rep);
    }
  }

  /** The step of `CollapseAppend` where `a` starts outside the class. */
  lemma {:induction false} CollapseAppendOther(a: string, b: string, k: CharClass, rep: char)
    requires |a| > 0 && !InClass(a[0], k)
    requires |b| == 0 || !InClass(a[|a| - 1], k) || !InClass(b[0], k)
    ensures Collapse(a + b, k, rep) == Collapse(a, k, rep) + Collapse(b, k, rep)
    decreases |a|, 0
  {
    var t := a[1..];
    assert Collapse(a + b, k, rep) == [a[0]] + Collapse(t + b, k, rep) by {
      assert (a + b)[0] == a[0] && (a + b)[1..] == t + b;
    }
    assert |t| == 0 || t[|t| - 1] == a[|a| - 1];
    CollapseAppend(t, b, k, rep);
    ConsAppend([a[0]], Collapse(a + b, k, rep), Collapse(a, k, rep),
      Collapse(t + b, k, rep), Collapse(t, k, rep), Collapse(b, k, rep));
  }

  /** The step of `CollapseAppend` where `a` starts with a run. */
  lemma {:induction false} CollapseAppendRun(a: string, b: string, k: CharClass, rep: char)
    requires |a| > 0 && InClass(a[0], k)
    requires |b| == 0 || !InClass(a[|a| - 1], k) || !InClass(b[0], k)
    ensures Collapse(a + b, k, rep) == Collapse(a, k, rep) + Collapse(b, k, rep)
    decreases |a|, 0
  {
    var d := DropRun(a, k);
    if d == "" {
      assert forall i :: 0 <= i < |a| ==> InClass(a[i], k);
      RunThenRest(a, b, k, rep);
      CollapseRun(a, k, rep);
    } else {
      DropRunAppend(a, b, k);
      assert Collapse(a + b, k, rep) == [rep] + Collapse(d + b, k, rep) by {
        assert (a + b)[0] == a[0];
      }
      assert d[|d| - 1] == a[|a| - 1];
      CollapseAppend(d, b, k, rep);
      ConsAppend([rep], Collapse(a + b, k, rep), Collapse(a, k, rep),
        Collapse(d + b, k, rep), Collapse(d, k, rep), Collapse(b, k, rep));
    }
  }

  /** A whole run followed by text that does not continue it: one `rep`,
      then the collapsed text. */
  lemma RunThenRest(run: string, b: string, k: CharClass, rep: char)
    requires |run| > 0 && forall i :: 0 <= i < |run| ==> InClass(run[i], k)
    requires |b| == 0 || !InClass(b[0], k)
    ensures Collapse(run + b, k, rep) == [rep] + Collapse(b, k, rep)
  {
    DropWholeRun(run, b, k);
    assert (run + b)[0] == run[0];
  }

  /** Each maximal run of class characters, wherever it stands, becomes
      exactly one `rep`, and the text on either side is collapsed on its
      own. */
  lemma CollapseRunInside(a: string, run: string, b: string, k: CharClass, rep: char)
    requires |run| > 0 && forall i :: 0 <= i < |run| ==> InClass(run[i], k)
    requires |a| == 0 || !InClass(a[|a| - 1], k)
    requires |b| == 0 || !InClass(b[0], k)
    ensures Collapse(a + run + b, k, rep) == Collapse(a, k, rep) + [rep] + Collapse(b, k, rep)
  {
    assert a + run + b == a + (run + b);
    CollapseAppend(a, run + b, k, rep);
    RunThenRest(run, b, k, rep);
    ConsAppend(Collapse(a, k, rep), Collapse(a + (run + b), k, rep), Collapse(a, k, rep) + [rep],
      Collapse(run + b, k, rep), [rep], Collapse(b, k, rep));
  }

  /** A plain character: not forbidden and not whitespace. */
  predicate Plain(c: char) {
    !Forbidden(c) && !IsSpace(c)
  }

  /** A run of forbidden characters between two plain characters becomes a
      single `_`. */
  lemma ForbiddenRunBecomesUnderscore(x: char, run: string, y: char)
    requires Plain(x) && Plain(y) && |run| > 0
    requires forall i :: 0 <= i < |run| ==> Forbidden(run[i])
    ensures Sanitize([x] + run + [y]) == [x, '_', y]
  {
    CollapseRunBetween(x, run, y, ForbiddenChars, '_');
    var a: string := [x, '_', y];
    CollapseWithoutClass(a, Whitespace, ' ');
    StrippedIsFixed(a);
  }

  /** A run of whitespace between two plain characters becomes a single
      space. */
  lemma SpaceRunBecomesSpace(x: char, run: string, y: char)
    requires Plain(x) && Plain(y) && |run| > 0
    requires forall i :: 0 <= i < |run| ==> IsSpace(run[i])
    ensures Sanitize([x] + run + [y]) == [x, ' ', y]
  {
    var s := [x] + run + [y];
    assert forall i :: 1 <= i < |s| - 1 ==> s[i] == run[i - 1];
    CollapseWithoutClass(s, ForbiddenChars, '_');
    CollapseRunBetween(x, run, y, Whitespace, ' ');
    StrippedIsFixed([x, ' ', y]);
  }

  /** The cut at 120 characters comes after the strip, so the result can end
      in a space. */
  lemma SanitizeMayEndInSpace()
    ensures var name := seq(119, i => 'a') + " b";
      var r := Sanitize(name);
      |r| == MaxNameLength && r[|r| - 1] == ' '
  {
    var name := seq(119, i => 'a') + " b";
    assert |name| == 121 && name[0] == 'a' && name[120] == 'b';
    assert forall i :: 0 <= i < |name| ==> !Forbidden(name[i]);
    CollapseWithoutClass(name, ForbiddenChars, '_');
    assert forall i :: 0 <= i < |name| && IsSpace(name[i]) ==> i == 119 && name[i] == ' ';
    CollapseFixed(name, Whitespace, ' ');
    StrippedIsFixed(name);
  }
}

=== FILE: images.dfy ===
/** Image handling around a post's detail page:
      - `ImageCandidates` and `DedupImageUrls`: the image list and its
        order-preserving de-duplication in `_extract_detail_only`
        (src/kakao_scraper.py);
      - `ExtForContentType`: the file extension `_download_images` picks
        from a response's content type (src/kakao_scraper.py);
      - `GuessExt`: `guess_ext` in playwright_kakao_posts_today.py, the
        extension taken from a URL path. */
module Images {
  import opened Wrappers
  import opened Text
  import opened StyleUrls

  // ---------------------------------------------------------------------------
  // Collecting and de-duplicating image URLs

  /** The list the detail page yields before de-duplication: every present,
      non-empty `src` of an `<img>` (stripped), then every URL found in the
      present, non-empty `style` attributes, in element order. */
  function ImageCandidates(srcs: seq<Option<string>>, styles: seq<Option<string>>): (urls: seq<string>)
    ensures forall i :: 0 <= i < |urls| ==> IsStripped(urls[i])
    decreases |srcs| + |styles|
  {
    if |srcs| > 0 then
      var head := srcs[0];
      (if head.Some? && head.value != "" then [Strip(head.value)] else []) + ImageCandidates(srcs[1..], styles)
    else if |styles| > 0 then
      var head := styles[0];
      (if head.Some? && head.value != "" then ExtractBgImageUrls(head.value) else []) + ImageCandidates([], styles[1..])
    else []
  }

  /** Reference definition of the de-duplication: walk the list, strip each
      URL, and keep it when it is non-empty and not seen before. */
  function DedupFrom(urls: seq<string>, seen: set<string>): seq<string>
    decreases |urls|
  {
    if |urls| == 0 then []
    else
      var u := Strip(urls[0]);
      if u == "" || u in seen then DedupFrom(urls[1..], seen)
      else [u] + DedupFrom(urls[1..], seen + {u})
  }

  /** No two entries are equal. */
  predicate Distinct(xs: seq<string>) {
    forall i, j :: 0 <= i < j < |xs| ==> xs[i] != xs[j]
  }

  /** The loop of `_extract_detail_only`, with its `seen` set: it keeps what
      the reference walk keeps. */
  method DedupLoop(urls: seq<string>) returns (out: seq<string>)
    ensures out == DedupFrom(urls, {})
  {
    out := [];
    var seen: set<string> := {};
    var i := 0;
    while i < |urls|
      invariant 0 <= i <= |urls|
      invariant out + DedupFrom(urls[i..], seen) == DedupFrom(urls, {})
    {
      var u := Strip(urls[i]);
      assert urls[i..][1..] == urls[i + 1..];
      if u == "" || u in seen {
      } else {
        seen := seen + {u};
        out := out + [u];
      }
      i := i + 1;
    }
    assert out + [] == out;
  }

  /** The de-duplicated image list: no repeats, no empty or padded entries,
      and exactly the non-empty stripped inputs. */
  method DedupImageUrls(urls: seq<string>) returns (out: seq<string>)
    ensures out == DedupFrom(urls, {})
    ensures Distinct(out)
    ensures forall i :: 0 <= i < |out| ==> out[i] != "" && IsStripped(out[i])
    ensures forall u :: u in out <==> u != "" && exists k :: 0 <= k < |urls| && Strip(urls[k]) == u
  {
    out := DedupLoop(urls);
    DedupFacts(urls, {});
  }

  /** What the de-duplication keeps: distinct, non-empty, stripped entries,
      none of them already seen, and exactly the stripped inputs that are
      non-empty and not seen. */
  lemma {:induction false} DedupFacts(urls: seq<string>, seen: set<string>)
    ensures var out := DedupFrom(urls, seen);
      && Distinct(out)
      && (forall i :: 0 <= i < |out| ==> out[i] != "" && IsStripped(out[i]) && out[i] !in seen)
      && (forall u :: u in out <==> u != "" && u !in seen && exists k :: 0 <= k < |urls| && Strip(urls[k]) == u)
    decreases |urls|
  {
    if |urls| > 0 {
      var u := Strip(urls[0]);
      var tail := urls[1..];
      assert forall k :: 0 <= k < |tail| ==> tail[k] == urls[k + 1];
      if u == "" || u in seen {
        DedupFacts(tail, seen);
        forall v | v != "" && v !in seen && (exists k :: 0 <= k < |urls| && Strip(urls[k]) == v)
          ensures exists k :: 0 <= k < |tail| && Strip(tail[k]) == v
        {
          var k :| 0 <= k < |urls| && Strip(urls[k]) == v;
          assert k != 0;
          assert Strip(tail[k - 1]) == v;
        }
      } else {
        DedupFacts(tail, seen + {u});
        var rest := DedupFrom(tail, seen + {u});
        assert DedupFrom(urls, seen) == [u] + rest;
        forall v | v != "" && v !in seen && v != u && (exists k :: 0 <= k < |urls| && Strip(urls[k]) == v)
          ensures exists k :: 0 <= k < |tail| && Strip(tail[k]) == v
        {
          var k :| 0 <= k < |urls| && Strip(urls[k]) == v;
          assert k != 0;
          assert Strip(tail[k - 1]) == v;
        }
      }
    }
  }

  /** De-duplicating a longer list only adds entries at the end, so entries
      keep the order of their first occurrence. */
  lemma {:induction false} DedupAppend(a: seq<string>, b: seq<string>, seen: set<string>)
    ensures DedupFrom(a + b, seen) == DedupFrom(a, seen) + DedupFrom(b, seen + SeenAfter(a, seen))
    decreases |a|
  {
    if |a| == 0 {
      assert a + b == b;
      assert seen + SeenAfter(a, seen) == seen;
    } else {
      var u := Strip(a[0]);
      assert (a + b)[0] == a[0];
      assert (a + b)[1..] == a[1..] + b;
      if u == "" || u in seen {
        DedupAppend(a[1..], b, seen);
      } else {
        DedupAppend(a[1..], b, seen + {u});
        assert seen + {u} + SeenAfter(a[1..], seen + {u}) == seen + SeenAfter(a, seen);
      }
    }
  }

  /** The URLs the walk has added to `seen` after reading `a`. */
  function SeenAfter(a: seq<string>, seen: set<string>): set<string>
    decreases |a|
  {
    if |a| == 0 then {}
    else
      var u := Strip(a[0]);
      if u == "" || u in seen then SeenAfter(a[1..], seen)
      else {u} + SeenAfter(a[1..], seen + {u})
  }

  /** The de-duplicated form of a prefix of the list is a prefix of the
      de-duplicated list. */
  lemma DedupPrefix(urls: seq<string>, n: int)
    requires 0 <= n <= |urls|
    ensures var whole, part := DedupFrom(urls, {}), DedupFrom(urls[..n], {});
      |part| <= |whole| && whole[..|part|] == part
  {
    assert urls == urls[..n] + urls[n..];
    DedupAppend(urls[..n], urls[n..], {});
  }

  /** A list already free of padding, empties and repeats is kept as is. */
  lemma {:induction false} DedupKeepsCleanList(urls: seq<string>, seen: set<string>)
    requires Distinct(urls)
    requires forall i :: 0 <= i < |urls| ==> urls[i] != "" && IsStripped(urls[i]) && urls[i] !in seen
    ensures DedupFrom(urls, seen) == urls
    decreases |urls|
  {
    if |urls| > 0 {
      StrippedIsFixed(urls[0]);
      DedupKeepsCleanList(urls[1..], seen + {urls[0]});
    }
  }

  // ---------------------------------------------------------------------------
  // Extension from the response content type

  /** `_download_images`: `.png` when the lower-cased content type mentions
      `png`, else `.webp` when it mentions `webp`, else `.jpg`; a missing
      header counts as empty. */
  function ExtForContentType(contentType: Option<string>): (ext: string)
    ensures ext == ".png" || ext == ".webp" || ext == ".jpg"
  {
    var ct := Lower(contentType.GetOr(""));
    if Contains(ct, "png") then ".png"
    else if Contains(ct, "webp") then ".webp"
    else ".jpg"
  }

  /** The content type is compared without regard to letter case. */
  lemma ExtForContentTypeIgnoresCase(ct: string)
    ensures ExtForContentType(Some(Lower(ct))) == ExtForContentType(Some(ct))
  {
    LowerIdempotent(ct);
  }

  /** The whole mapping, for every header: `png` anywhere in the lower-cased
      type wins, then `webp`, and everything else, a missing header
      included, is `.jpg`. */
  lemma ExtForContentTypeRule(ct: Option<string>)
    ensures var t := Lower(ct.GetOr(""));
      && (Contains(t, "png") ==> ExtForContentType(ct) == ".png")
      && (!Contains(t, "png") && Contains(t, "webp") ==> ExtForContentType(ct) == ".webp")
      && (!Contains(t, "png") && !Contains(t, "webp") ==> ExtForContentType(ct) == ".jpg")
    ensures ct.None? ==> ExtForContentType(ct) == ".jpg"
  {
    if ct.None? {
      assert Lower("") == "";
      assert !Contains("", "png") by {
        ContainsIffOccurs("", "png");
      }
      assert !Contains("", "webp") by {
        ContainsIffOccurs("", "webp");
      }
    }
  }

  /** A content type naming neither format, or none at all, gives `.jpg`:
      `image/jpeg`, `image/jpg` and `image/gif` all land here. */
  lemma ExtForContentTypeDefault(ct: Option<string>)
    requires !Contains(Lower(ct.GetOr("")), "png") && !Contains(Lower(ct.GetOr("")), "webp")
    ensures ExtForContentType(ct) == ".jpg"
  {
    ExtForContentTypeRule(ct);
  }

  /** `image/PNG` selects `.png`, whatever the letter case. */
  lemma PngContentType()
    ensures ExtForContentType(Some("image/PNG")) == ".png"
  {
    var ct := Lower("image/PNG");
    assert ct == "image/png";
    assert OccursAt(ct, "png", 6);
    OccursImpliesContains(ct, "png", 6);
  }

  /** `image/webp` selects `.webp`. */
  lemma WebpContentType()
    ensures ExtForContentType(Some("image/webp")) == ".webp"
  {
    var ct := Lower("image/webp");
    assert ct == "image/webp";
    assert OccursAt(ct, "webp", 6);
    OccursImpliesContains(ct, "webp", 6);
    if Contains(ct, "png") {
      ContainedCharsOccur(ct, "png", 1);
    }
  }

  // ---------------------------------------------------------------------------
  // `guess_ext`

  /** Python's `s.rfind(c)`: the last index holding `c`, or -1. */
  function RFind(s: string, c: char): (i: int)
    ensures -1 <= i < |s|
    ensures i >= 0 ==> s[i] == c
    ensures forall k :: i < k < |s| ==> s[k] != c
    decreases |s|
  {
    if |s| == 0 then -1
    else if s[|s| - 1] == c then |s| - 1
    else RFind(s[..|s| - 1], c)
  }

  /** Some character of `s[a..b]` is not a dot. */
  predicate HasNonDot(s: string, a: int, b: int) {
    exists k :: a <= k < b && 0 <= k < |s| && s[k] != '.'
  }

  /** The extension `os.path.splitext` (POSIX) splits off: from the last dot
      on, provided that dot is in the last path component and is not part of
      the leading dots of that component; otherwise empty. */
  function SplitExt(path: string): (ext: string)
    ensures ext == "" || (ext[0] == '.' && '.' !in ext[1..] && '/' !in ext)
  {
    var sep, dot := RFind(path, '/'), RFind(path, '.');
    if dot > sep && HasNonDot(path, sep + 1, dot) then
      var ext := path[dot..];
      assert forall k :: 0 <= k < |ext| ==> ext[k] == path[dot + k];
      ext
    else ""
  }

  predicate KnownExt(e: string) {
    e == "jpg" || e == "jpeg" || e == "png" || e == "webp" || e == "gif"
  }

  /** `guess_ext`: the lower-cased extension without its dot, `jpeg` read as
      `jpg`, and `jpg` for anything unknown or missing. */
  function GuessExt(path: string): (e: string)
    ensures e == "jpg" || e == "png" || e == "webp" || e == "gif"
  {
    var ext := LStripDots(Lower(SplitExt(path)));
    if KnownExt(ext) then (if ext == "jpeg" then "jpg" else ext) else "jpg"
  }

  /** Python's `s.lstrip(".")`. */
  function LStripDots(s: string): (r: string)
    ensures |r| <= |s| && r == s[|s| - |r|..]
    ensures |r| > 0 ==> r[0] != '.'
    ensures forall k :: 0 <= k < |s| - |r| ==> s[k] == '.'
    decreases |s|
  {
    if |s| > 0 && s[0] == '.' then LStripDots(s[1..]) else s
  }

  /** The name `guess_ext` gives an extension `e` after a plain file stem. */
  function Canonical(e: string): string {
    var l := Lower(e);
    if KnownExt(l) then (if l == "jpeg" then "jpg" else l) else "jpg"
  }

  /** `rfind` returns the position of the last occurrence. */
  lemma {:induction false} RFindLast(s: string, c: char, i: int)
    requires 0 <= i < |s| && s[i] == c
    requires forall k :: i < k < |s| ==> s[k] != c
    ensures RFind(s, c) == i
    decreases |s|
  {
    if i < |s| - 1 {
      var init := s[..|s| - 1];
      assert forall k :: i < k < |init| ==> init[k] == s[k];
      RFindLast(init, c, i);
    }
  }

  /** `splitext` of `dir/stem.e` is `.e`. */
  lemma SplitExtOfName(dir: string, stem: string, e: string)
    requires '.' !in stem && '/' !in stem && stem != ""
    requires '.' !in e && '/' !in e
    ensures SplitExt(dir + "/" + stem + "." + e) == "." + e
  {
    var path := dir + "/" + stem + "." + e;
    var sep, dot := |dir|, |dir| + 1 + |stem|;
    assert path == (dir + "/" + stem) + ("." + e);
    assert path[sep] == '/' && path[dot] == '.';
    forall k | dot < k < |path| ensures path[k] != '.' && path[k] != '/' {
      assert path[k] == e[k - dot - 1];
    }
    forall k | sep < k < dot ensures path[k] != '.' && path[k] != '/' {
      assert path[k] == stem[k - sep - 1];
    }
    RFindLast(path, '.', dot);
    RFindLast(path, '/', sep);
    assert path[sep + 1] != '.';
    assert path[dot..] == "." + e;
  }

  /** Stripping the dot from `.e`, lower-cased, leaves `e` lower-cased. */
  lemma StripExtDot(e: string)
    requires '.' !in e
    ensures LStripDots(Lower("." + e)) == Lower(e)
  {
    var l := Lower("." + e);
    assert l == "." + Lower(e);
    assert l[1..] == Lower(e);
    if |e| > 0 {
      assert Lower(e)[0] == LowerChar(e[0]);
      assert e[0] in e;
    }
  }

  /** A file name `stem.e` in any directory yields the canonical form of `e`. */
  lemma GuessExtOfName(dir: string, stem: string, e: string)
    requires '.' !in stem && '/' !in stem && stem != ""
    requires '.' !in e && '/' !in e
    ensures GuessExt(dir + "/" + stem + "." + e) == Canonical(e)
  {
    SplitExtOfName(dir, stem, e);
    StripExtDot(e);
  }

  /** A path with no dot in it has no extension, so `jpg`. */
  lemma GuessExtWithoutDot(path: string)
    requires '.' !in path
    ensures GuessExt(path) == "jpg"
  {
    assert SplitExt(path) == "";
    assert LStripDots(Lower("")) == "";
  }

  /** A name made only of leading dots and an extension, like `.png`, has
      no extension, so `jpg`. */
  lemma GuessExtOfDotFile(dir: string, e: string)
    requires '.' !in e && '/' !in e
    ensures GuessExt(dir + "/." + e) == "jpg"
  {
    var path := dir + "/." + e;
    var sep := |dir|;
    assert path[sep] == '/' && path[sep + 1] == '.';
    assert forall k :: sep + 1 < k < |path| ==> path[k] == e[k - sep - 2];
    assert RFind(path, '.') == sep + 1;
    assert RFind(path, '/') == sep;
    assert !HasNonDot(path, sep + 1, sep + 1);
    assert SplitExt(path) == "";
    assert LStripDots(Lower("")) == "";
  }
}

=== FILE: messages.dfy ===
/** What the runner (src/runner.py, `main_async`) and the command bot
    (src/telegram_command_bot.py, `do_scrape_and_send`) send for one scrape
    result: the text message of `build_message` (identical in both files)
    and the downloaded photos in media groups of at most ten, as the mode
    selects. The Telegram calls become a list of deliveries. */
module Messages {
  import opened Wrappers
  import opened Text

  /** U+1F4CC PUSHPIN, the head of every message. */
  const Pin: char := '\U{1F4CC}'

  /** U+1F517 LINK SYMBOL, the head of the link section. */
  const LinkMark: char := '\U{1F517}'

  /** The blank line between sections. */
  const Gap := "\n\n"

  /** The keys of the scrape result the senders read; `None` for a key that
      is missing or holds `None`. */
  datatype PostResult = PostResult(
    title: Option<string>,
    text: Option<string>,
    url: Option<string>,
    downloaded: seq<string>)

  /** `(result.get(key) or "").strip()`. */
  function Field(v: Option<string>): (r: string)
    ensures IsStripped(r)
    ensures v.None? ==> r == ""
  {
    Strip(v.GetOr(""))
  }

  /** `build_message`: the pin and the title, stripped; then the text and
      the link, each after a blank line, when not empty. */
  function BuildMessage(p: PostResult): string {
    var title, text, url := Field(p.title), Field(p.text), Field(p.url);
    Strip([Pin, ' '] + title)
      + (if text != "" then Gap + text else "")
      + (if url != "" then Gap + [LinkMark, ' '] + url else "")
  }

  /** The first line is the pin followed by the title, with no trailing
      space when the title is empty. */
  lemma HeadLine(title: string)
    requires IsStripped(title)
    ensures Strip([Pin, ' '] + title) == if title == "" then [Pin] else [Pin, ' '] + title
  {
    if title == "" {
      var s := [Pin, ' '];
      assert s[..|s| - 1] == [Pin];
      assert IsSpace(s[|s| - 1]) && !IsSpace(s[0]);
      StrippedIsFixed([Pin]);
    } else {
      StrippedIsFixed([Pin, ' '] + title);
    }
  }

  /** The sections made from the three stripped fields. */
  function SectionList(title: string, text: string, url: string): seq<string> {
    [if title == "" then [Pin] else [Pin, ' '] + title]
      + (if text != "" then [text] else [])
      + (if url != "" then [[LinkMark, ' '] + url] else [])
  }

  /** Reference layout: the sections of a message, in order. */
  function Sections(p: PostResult): (ss: seq<string>)
    ensures 1 <= |ss| <= 3
    ensures |ss| == 1 + (if Field(p.text) != "" then 1 else 0) + (if Field(p.url) != "" then 1 else 0)
  {
    SectionList(Field(p.title), Field(p.text), Field(p.url))
  }

  /** `sep.join(ss)`. */
  function Join(ss: seq<string>, sep: string): string
    decreases |ss|
  {
    if |ss| == 0 then ""
    else if |ss| == 1 then ss[0]
    else Join(ss[..|ss| - 1], sep) + sep + ss[|ss| - 1]
  }

  /** Joining one, two or three strings. */
  lemma JoinSmall(a: string, b: string, c: string, sep: string)
    ensures Join([a], sep) == a
    ensures Join([a, b], sep) == a + (sep + b)
    ensures Join([a, b, c], sep) == a + (sep + b) + (sep + c)
  {
    assert [a, b][..1] == [a];
    assert [a, b, c][..2] == [a, b];
    assert a + sep + b == a + (sep + b);
    assert a + (sep + b) + sep + c == a + (sep + b) + (sep + c);
  }

  /** The sections: the title line first, the text when there is one, and
      the link section last exactly when there is a link. */
  lemma SectionsLayout(p: PostResult)
    ensures var ss := Sections(p);
      && ss[0] == (if Field(p.title) == "" then [Pin] else [Pin, ' '] + Field(p.title))
      && (Field(p.text) != "" <==> Field(p.text) in ss[1..])
      && (Field(p.url) != "" <==> ss[|ss| - 1] == [LinkMark, ' '] + Field(p.url))
  {
    var title, text, url := Field(p.title), Field(p.text), Field(p.url);
    var head := if title == "" then [Pin] else [Pin, ' '] + title;
    var ss := Sections(p);
    if text != "" && url != "" {
      assert ss == [head, text, [LinkMark, ' '] + url];
      assert ss[1..] == [text, [LinkMark, ' '] + url];
    } else if text != "" {
      assert ss == [head, text];
    } else if url != "" {
      assert ss == [head, [LinkMark, ' '] + url];
      assert ss[1][0] == LinkMark && ss[0][0] == Pin;
    } else {
      assert ss == [head];
    }
  }

  /** The head line of the sections, with the parts after it, is their
      join. */
  lemma ComposedIsJoined(title: string, text: string, url: string)
    ensures var head := SectionList(title, text, url)[0];
      head
      + (if text != "" then Gap + text else "")
      + (if url != "" then Gap + [LinkMark, ' '] + url else "")
      == Join(SectionList(title, text, url), Gap)
  {
    var head := if title == "" then [Pin] else [Pin, ' '] + title;
    var link := [LinkMark, ' '] + url;
    var ss := SectionList(title, text, url);
    var msg := head + (if text != "" then Gap + text else "") + (if url != "" then Gap + link else "");
    if text != "" && url != "" {
      assert msg == Join(ss, Gap) by {
        JoinSmall(head, text, link, Gap);
        assert ss == [head, text, link];
      }
    } else if text != "" {
      assert msg == Join(ss, Gap) by {
        JoinSmall(head, text, link, Gap);
        assert ss == [head, text];
        assert head + (Gap + text) + "" == head + (Gap + text);
      }
    } else if url != "" {
      assert msg == Join(ss, Gap) by {
        JoinSmall(head, link, link, Gap);
        assert ss == [head, link];
        assert head + "" + (Gap + link) == head + (Gap + link);
      }
    } else {
      assert msg == Join(ss, Gap) by {
        JoinSmall(head, link, link, Gap);
        assert ss == [head];
        assert head + "" + "" == head;
      }
    }
  }

  /** The message is its sections joined by blank lines. */
  lemma MessageIsJoinedSections(p: PostResult)
    ensures BuildMessage(p) == Join(Sections(p), Gap)
  {
    var title, text, url := Field(p.title), Field(p.text), Field(p.url);
    HeadLine(title);
    ComposedIsJoined(title, text, url);
  }

  /** Every message starts with the pin; after an empty title the pin is
      followed by nothing or by the blank line before the next section. */
  lemma MessageStartsWithPin(p: PostResult)
    ensures var msg := BuildMessage(p);
      && |msg| > 0 && msg[0] == Pin
      && (Field(p.title) == "" ==> |msg| == 1 || msg[1] == '\n')
  {
    HeadLine(Field(p.title));
  }

  /** With a link, the message ends with the link section. */
  lemma MessageEndsWithLink(p: PostResult)
    requires Field(p.url) != ""
    ensures EndsWith(BuildMessage(p), Gap + [LinkMark, ' '] + Field(p.url))
  {
    var tail := Gap + [LinkMark, ' '] + Field(p.url);
    var msg := BuildMessage(p);
    var front := msg[..|msg| - |tail|];
    assert msg == front + tail;
    assert forall x :: 0 <= x < |tail| ==> msg[|msg| - |tail| + x] == tail[x];
  }

  /** A missing key, `None`, an empty string and a blank string all give
      the same message, and so does a value with surrounding whitespace. */
  lemma MessageUsesStrippedFields(p: PostResult)
    ensures BuildMessage(p) == BuildMessage(PostResult(Some(Field(p.title)), Some(Field(p.text)), Some(Field(p.url)), []))
    ensures BuildMessage(p) == BuildMessage(PostResult(p.title, if Field(p.text) == "" then None else p.text, p.url, p.downloaded))
  {
    StripIdempotent(p.title.GetOr(""));
    StripIdempotent(p.text.GetOr(""));
    StripIdempotent(p.url.GetOr(""));
  }

  /** Title `T`, no text and link `u` give `📌 T`, a blank line and `🔗 u`. */
  lemma MessageExample()
    ensures BuildMessage(PostResult(Some("T"), None, Some("u"), [])) == [Pin, ' ', 'T', '\n', '\n', LinkMark, ' ', 'u']
  {
    StrippedIsFixed("T");
    StrippedIsFixed("u");
    HeadLine("T");
  }

  // ---------------------------------------------------------------------------
  // Photo batches and the mode dispatch

  /** Telegram takes at most ten photos per media group. */
  const BatchSize := 10

  /** The concatenation of the batches, in order. */
  function Flatten<T>(bs: seq<seq<T>>): seq<T>
    decreases |bs|
  {
    if |bs| == 0 then [] else Flatten(bs[..|bs| - 1]) + bs[|bs| - 1]
  }

  /** `for i in range(0, len(imgs), 10): imgs[i:i + 10]`. */
  method PhotoBatches<T>(imgs: seq<T>) returns (bs: seq<seq<T>>)
    ensures Flatten(bs) == imgs
    ensures forall j :: 0 <= j < |bs| ==> 0 < |bs[j]| <= BatchSize
    ensures forall j :: 0 <= j < |bs| - 1 ==> |bs[j]| == BatchSize
    ensures |bs| == (|imgs| + BatchSize - 1) / BatchSize
    ensures imgs == [] <==> bs == []
  {
    bs := [];
    var i := 0;
    while |imgs| - i > BatchSize
      invariant 0 <= i <= |imgs| && i == BatchSize * |bs|
      invariant Flatten(bs) == imgs[..i]
      invariant forall j :: 0 <= j < |bs| ==> |bs[j]| == BatchSize
    {
      var b := imgs[i..i + BatchSize];
      assert imgs[..i + BatchSize] == imgs[..i] + b;
      assert (bs + [b])[..|bs|] == bs;
      bs := bs + [b];
      i := i + BatchSize;
    }
    if i < |imgs| {
      var b := imgs[i..];
      assert imgs == imgs[..i] + b;
      assert (bs + [b])[..|bs|] == bs;
      bs := bs + [b];
    } else {
      assert imgs[..i] == imgs;
    }
  }

  /** One call into Telegram: a text message or one media group. */
  datatype Delivery = SendText(text: string) | SendMediaGroup(photos: seq<string>)

  /** The photos sent, in order. */
  function SentPhotos(ds: seq<Delivery>): seq<string>
    decreases |ds|
  {
    if |ds| == 0 then []
    else
      var last := ds[|ds| - 1];
      SentPhotos(ds[..|ds| - 1]) + (if last.SendMediaGroup? then last.photos else [])
  }

  /** The text is sent for `full` and `text`. */
  predicate SendsText(mode: string) {
    mode == "full" || mode == "text"
  }

  /** The photos are sent for `full` and `image`. */
  predicate SendsPhotos(mode: string) {
    mode == "full" || mode == "image"
  }

  /** One `send_media_group` per batch, after the deliveries already made. */
  method SendBatches(start: seq<Delivery>, bs: seq<seq<string>>) returns (ds: seq<Delivery>)
    ensures |ds| == |start| + |bs| && ds[..|start|] == start
    ensures forall j :: |start| <= j < |ds| ==> ds[j] == SendMediaGroup(bs[j - |start|])
    ensures SentPhotos(ds) == SentPhotos(start) + Flatten(bs)
  {
    ds := start;
    var k := 0;
    while k < |bs|
      invariant 0 <= k <= |bs|
      invariant |ds| == |start| + k && ds[..|start|] == start
      invariant forall j :: |start| <= j < |ds| ==> ds[j] == SendMediaGroup(bs[j - |start|])
      invariant SentPhotos(ds) == SentPhotos(start) + Flatten(bs[..k])
    {
      var next := ds + [SendMediaGroup(bs[k])];
      assert next[..|ds|] == ds;
      assert SentPhotos(next) == SentPhotos(start) + Flatten(bs[..k + 1]) by {
        assert bs[..k + 1][..k] == bs[..k];
        assert Flatten(bs[..k + 1]) == Flatten(bs[..k]) + bs[k];
      }
      ds := next;
      k := k + 1;
    }
    assert bs[..|bs|] == bs;
  }

  /** The tail of `main_async` and of `do_scrape_and_send`: the message when
      the mode sends text, then the photo batches when it sends photos. */
  method Dispatch(mode: string, p: PostResult) returns (ds: seq<Delivery>)
    ensures SendsText(mode) <==> |ds| > 0 && ds[0] == SendText(BuildMessage(p))
    ensures forall j :: 0 <= j < |ds| && ds[j].SendText? ==> j == 0 && SendsText(mode)
    ensures forall j :: 0 <= j < |ds| && ds[j].SendMediaGroup? ==> 0 < |ds[j].photos| <= BatchSize
    ensures SentPhotos(ds) == if SendsPhotos(mode) then p.downloaded else []
    ensures !SendsText(mode) && !SendsPhotos(mode) ==> ds == []
  {
    var start: seq<Delivery> := if SendsText(mode) then [SendText(BuildMessage(p))] else [];
    assert SentPhotos(start) == [] by {
      if SendsText(mode) {
        assert start[..0] == [];
      }
    }
    if SendsPhotos(mode) {
      var bs := PhotoBatches(p.downloaded);
      ds := SendBatches(start, bs);
      assert |start| > 0 ==> ds[0] == ds[..|start|][0];
    } else {
      ds := start;
    }
  }

  // ---------------------------------------------------------------------------
  // Where the mode comes from

  /** The runner's mode: `os.getenv("MODE", "full").strip().lower()`, with
      the environment variable as a parameter. */
  function RunnerMode(env: Option<string>): string {
    Lower(Strip(env.GetOr("full")))
  }

  /** Lowering keeps a stripped string stripped: it changes letters only. */
  lemma LowerKeepsStripped(s: string)
    requires IsStripped(s)
    ensures IsStripped(Lower(s))
  {
  }

  /** An unset `MODE` means `full`, and normalising a mode again changes
      nothing, so the runner only ever compares a stripped, lower-case word. */
  lemma RunnerModeFacts(env: Option<string>)
    ensures env.None? ==> RunnerMode(env) == "full"
    ensures RunnerMode(Some(RunnerMode(env))) == RunnerMode(env)
    ensures IsStripped(RunnerMode(env))
  {
    var s := Strip(env.GetOr("full"));
    LowerKeepsStripped(s);
    StrippedIsFixed(Lower(s));
    LowerIdempotent(s);
    if env.None? {
      StrippedIsFixed("full");
      assert Lower("full") == "full";
    }
  }

  /** The bot's commands; `/send` schedules a later `full` run. */
  datatype Command = Menu | Preview | ImageOnly | Scheduled

  /** The mode each command hands to `do_scrape_and_send`. */
  function CommandMode(c: Command): (mode: string)
    ensures SendsText(mode) <==> c != ImageOnly
    ensures SendsPhotos(mode) <==> c != Preview
  {
    match c
    case Menu => "full"
    case Preview => "text"
    case ImageOnly => "image"
    case Scheduled => "full"
  }
}

=== FILE: style_urls.dfy ===
/** The two hand-written readers of CSS `url(...)` values:
      - `ExtractBgImageUrls`: `_extract_bg_image_urls_from_style` in
        src/kakao_scraper.py, every `url(...)` of a style attribute;
      - `ParseBgImage`: `parse_bg_image` in playwright_kakao_posts_today.py,
        the first `background-image: url(...)`.
    Each regular expression is written out as the search it performs: a
    left-to-right scan for the literal opening, then a lazy `.*?` that takes
    the first closing it reaches and never crosses a newline. */
module StyleUrls {
  import opened Wrappers
  import opened Text

  predicate IsQuote(c: char) {
    c == '"' || c == '\''
  }

  /** No newline among `s[a..b]` (`.` does not match `\n`). */
  predicate NoNewline(s: string, a: int, b: int) {
    0 <= a <= b <= |s| && forall x :: a <= x < b ==> s[x] != '\n'
  }

  // ---------------------------------------------------------------------------
  // `url\((['"]?)(.*?)\1\)` with `re.finditer`

  /** The rest of the pattern, `\1\)`, matches at `k`: the opening quote
      again (if there was one) and then `)`. */
  predicate ClosesUrl(s: string, quote: Option<char>, k: int) {
    match quote
    case Some(q) => 0 <= k && k + 1 < |s| && s[k] == q && s[k + 1] == ')'
    case None => 0 <= k < |s| && s[k] == ')'
  }

  /** The lazy `(.*?)` from `i`: the first position where the closing
      matches, provided no newline comes before it. */
  function UrlClose(s: string, quote: Option<char>, i: int): (r: Option<int>)
    requires 0 <= i <= |s|
    ensures r.Some? ==> i <= r.value && ClosesUrl(s, quote, r.value) && NoNewline(s, i, r.value)
    ensures r.Some? ==> forall x :: i <= x < r.value ==> !ClosesUrl(s, quote, x)
    ensures r.None? ==> forall k :: i <= k && ClosesUrl(s, quote, k) ==> !NoNewline(s, i, k)
    decreases |s| - i
  {
    if i == |s| then None
    else if ClosesUrl(s, quote, i) then Some(i)
    else if s[i] == '\n' then None
    else UrlClose(s, quote, i + 1)
  }

  /** A match: the captured text is `s[start..end]`, and the next search
      resumes at `next`. */
  datatype Span = Span(start: int, end: int, next: int)

  /** The pattern tried at position `p`. The optional quote is greedy, so
      the quoted reading is tried first and the unquoted one only when the
      quoted one finds no closing. */
  function UrlAt(s: string, p: int): (r: Option<Span>)
    requires 0 <= p <= |s|
    ensures r.Some? ==> OccursAt(s, "url(", p)
    ensures r.Some? ==> p + 4 <= r.value.start <= r.value.end < r.value.next <= |s|
    ensures r.Some? ==> NoNewline(s, r.value.start, r.value.end)
  {
    if !OccursAt(s, "url(", p) then None
    else
      var i := p + 4;
      var quoted := if i < |s| && IsQuote(s[i]) then UrlClose(s, Some(s[i]), i + 1) else None;
      if quoted.Some? then Some(Span(i + 1, quoted.value, quoted.value + 2))
      else
        match UrlClose(s, None, i)
        case Some(k) => Some(Span(i, k, k + 1))
        case None => None
  }

  /** `finditer` from position `p`: each match's group, stripped, kept when
      non-empty. */
  function UrlsFrom(s: string, p: int): (urls: seq<string>)
    requires 0 <= p <= |s|
    ensures forall j :: 0 <= j < |urls| ==> urls[j] != "" && IsStripped(urls[j])
    decreases |s| - p
  {
    if p == |s| then []
    else
      match UrlAt(s, p)
      case None => UrlsFrom(s, p + 1)
      case Some(m) =>
        var u := Strip(s[m.start..m.end]);
        (if u != "" then [u] else []) + UrlsFrom(s, m.next)
  }

  /** `_extract_bg_image_urls_from_style`: every `url(...)` value of a style
      attribute, stripped, in order, empty ones dropped. */
  function ExtractBgImageUrls(style: string): (urls: seq<string>)
    ensures style == "" ==> urls == []
    ensures forall j :: 0 <= j < |urls| ==> urls[j] != "" && IsStripped(urls[j])
  {
    if style == "" then [] else UrlsFrom(style, 0)
  }

  /** Every extracted URL is text of the style. */
  lemma {:induction false} UrlsFromAreInStyle(s: string, p: int, j: int)
    requires 0 <= p <= |s|
    requires 0 <= j < |UrlsFrom(s, p)|
    ensures Contains(s, UrlsFrom(s, p)[j])
    decreases |s| - p
  {
    if p < |s| {
      var r := UrlAt(s, p);
      if r.None? {
        assert UrlsFrom(s, p) == UrlsFrom(s, p + 1);
        UrlsFromAreInStyle(s, p + 1, j);
      } else {
        var m := r.value;
        var u := Strip(s[m.start..m.end]);
        var head := if u != "" then [u] else [];
        var rest := UrlsFrom(s, m.next);
        assert UrlsFrom(s, p) == head + rest;
        if j < |head| {
          StrippedSliceIsContained(s, m.start, m.end);
        } else {
          var k := j - |head|;
          assert UrlsFrom(s, p)[j] == rest[k];
          UrlsFromAreInStyle(s, m.next, k);
        }
      }
    }
  }

  /** The stripped form of a slice of `s` is contained in `s`. */
  lemma StrippedSliceIsContained(s: string, a: int, b: int)
    requires 0 <= a <= b <= |s|
    ensures Contains(s, Strip(s[a..b]))
  {
    var seg := s[a..b];
    var u := Strip(seg);
    assert OccursAt(u, u, 0);
    OccursImpliesContains(u, u, 0);
    ContainedInStripped(seg, u);
    ContainedInSlice(s, a, b, u);
  }

  lemma ExtractedUrlsAreInStyle(style: string, j: int)
    requires 0 <= j < |ExtractBgImageUrls(style)|
    ensures Contains(style, ExtractBgImageUrls(style)[j])
  {
    UrlsFromAreInStyle(style, 0, j);
  }

  /** The lazy search stops at the first closing when nothing before it is
      a closing or a newline. */
  lemma {:induction false} UrlCloseFinds(s: string, quote: Option<char>, i: int, k: int)
    requires 0 <= i <= k && ClosesUrl(s, quote, k)
    requires forall x :: i <= x < k ==> !ClosesUrl(s, quote, x) && s[x] != '\n'
    ensures UrlClose(s, quote, i) == Some(k)
    decreases k - i
  {
    if i < k {
      UrlCloseFinds(s, quote, i + 1, k);
    }
  }

  /** A double-quoted URL with no quote, newline or padding in it is read
      back as itself. */
  lemma ExtractQuotedUrl(u: string)
    requires u != "" && IsStripped(u)
    requires '"' !in u && '\n' !in u
    ensures ExtractBgImageUrls("url(\"" + u + "\")") == [u]
  {
    var s := "url(\"" + u + "\")";
    var n := |u|;
    assert forall x :: 0 <= x < n ==> s[5 + x] == u[x];
    assert OccursAt(s, "url(", 0);
    UrlCloseFinds(s, Some('"'), 5, 5 + n);
    assert UrlAt(s, 0) == Some(Span(5, 5 + n, 7 + n));
    assert s[5..5 + n] == u;
    StrippedIsFixed(u);
    assert UrlsFrom(s, |s|) == [];
  }

  /** An unquoted URL with no `)`, newline or padding in it is read back
      as itself. */
  lemma ExtractUnquotedUrl(u: string)
    requires u != "" && IsStripped(u) && !IsQuote(u[0])
    requires ')' !in u && '\n' !in u
    ensures ExtractBgImageUrls("url(" + u + ")") == [u]
  {
    var s := "url(" + u + ")";
    var n := |u|;
    assert forall x :: 0 <= x < n ==> s[4 + x] == u[x];
    assert OccursAt(s, "url(", 0);
    UrlCloseFinds(s, None, 4, 4 + n);
    assert UrlAt(s, 0) == Some(Span(4, 4 + n, 5 + n));
    assert s[4..4 + n] == u;
    StrippedIsFixed(u);
    assert UrlsFrom(s, |s|) == [];
  }

  // ---------------------------------------------------------------------------
  // `background-image:\s*url\(["']?(.*?)["']?\)` with `re.search`

  /** The rest of the pattern, `["']?\)`, matches at `k`. */
  predicate ClosesBg(s: string, k: int) {
    0 <= k < |s| && (s[k] == ')' || (IsQuote(s[k]) && k + 1 < |s| && s[k + 1] == ')'))
  }

  /** The lazy `(.*?)` from `i`: the first position where `["']?\)` matches,
      provided no newline comes before it. */
  function BgClose(s: string, i: int): (r: Option<int>)
    requires 0 <= i <= |s|
    ensures r.Some? ==> i <= r.value && ClosesBg(s, r.value) && NoNewline(s, i, r.value)
    ensures r.Some? ==> forall x :: i <= x < r.value ==> !ClosesBg(s, x)
    ensures r.None? ==> forall k :: i <= k && ClosesBg(s, k) ==> !NoNewline(s, i, k)
    decreases |s| - i
  {
    if i == |s| then None
    else if ClosesBg(s, i) then Some(i)
    else if s[i] == '\n' then None
    else BgClose(s, i + 1)
  }

  const BgProperty := "background-image:"

  /** The pattern tried at position `p`; the result is the captured group. */
  function BgAt(s: string, p: int): (r: Option<string>)
    requires 0 <= p <= |s|
    ensures r.Some? ==> OccursAt(s, BgProperty, p)
  {
    if !OccursAt(s, BgProperty, p) then None
    else
      var j := SkipSpaces(s, p + |BgProperty|);
      if !OccursAt(s, "url(", j) then None
      else
        var i := j + 4;
        var quoted := if i < |s| && IsQuote(s[i]) then BgClose(s, i + 1) else None;
        if quoted.Some? then Some(s[i + 1..quoted.value])
        else
          match BgClose(s, i)
          case Some(k) => Some(s[i..k])
          case None => None
  }

  /** `re.search` from position `p`: the leftmost match. */
  function BgFrom(s: string, p: int): (r: Option<string>)
    requires 0 <= p <= |s|
    decreases |s| - p
  {
    if p == |s| then None
    else if BgAt(s, p).Some? then BgAt(s, p)
    else BgFrom(s, p + 1)
  }

  /** `parse_bg_image`: the first `background-image: url(...)` value, or
      `None` for an empty style or one without such a declaration. */
  function ParseBgImage(style: string): (r: Option<string>)
    ensures style == "" ==> r.None?
  {
    if style == "" then None else BgFrom(style, 0)
  }

  /** A value is found only where `background-image:` is written, and it
      holds neither `)` nor a newline. */
  lemma {:induction false} BgFromFacts(s: string, p: int) returns (q: int)
    requires 0 <= p <= |s|
    ensures BgFrom(s, p).Some? ==> p <= q && OccursAt(s, BgProperty, q)
    ensures BgFrom(s, p).Some? ==> ')' !in BgFrom(s, p).value && '\n' !in BgFrom(s, p).value
    decreases |s| - p
  {
    q := p;
    if p < |s| {
      if BgAt(s, p).Some? {
        BgAtFacts(s, p);
      } else {
        q := BgFromFacts(s, p + 1);
      }
    }
  }

  lemma BgAtFacts(s: string, p: int)
    requires 0 <= p <= |s| && BgAt(s, p).Some?
    ensures ')' !in BgAt(s, p).value && '\n' !in BgAt(s, p).value
  {
    var j := SkipSpaces(s, p + |BgProperty|);
    var i := j + 4;
    var quoted := if i < |s| && IsQuote(s[i]) then BgClose(s, i + 1) else None;
    if quoted.Some? {
      BgCloseSegment(s, i + 1);
    } else {
      BgCloseSegment(s, i);
    }
  }

  /** The text the lazy group skips over holds neither `)` nor a newline. */
  lemma BgCloseSegment(s: string, a: int)
    requires 0 <= a <= |s| && BgClose(s, a).Some?
    ensures ')' !in s[a..BgClose(s, a).value] && '\n' !in s[a..BgClose(s, a).value]
  {
    var b := BgClose(s, a).value;
    forall x | a <= x < b ensures s[x] != ')' && s[x] != '\n' {
      assert !ClosesBg(s, x);
    }
  }

  /** `parse_bg_image` says `None` for a style that does not mention
      `background-image:`. */
  lemma ParseBgImageNeedsProperty(style: string)
    requires !Contains(style, BgProperty)
    ensures ParseBgImage(style).None?
  {
    if style != "" {
      var q := BgFromFacts(style, 0);
      if BgFrom(style, 0).Some? {
        OccursImpliesContains(style, BgProperty, q);
      }
    }
  }

  /** Nothing matches at the very end: `background-image:` does not fit. */
  lemma BgAtEnd(s: string)
    ensures BgAt(s, |s|).None?
  {
    assert !OccursAt(s, BgProperty, |s|) by {
      assert |BgProperty| > 0;
    }
  }

  /** The pattern tried at every position of `s`. */
  function Attempts(s: string): (a: seq<Option<string>>)
    ensures |a| == |s| && forall x :: 0 <= x < |s| ==> a[x] == BgAt(s, x)
  {
    seq(|s|, x requires 0 <= x < |s| => BgAt(s, x))
  }

  /** The first attempt from `p` on that succeeds. */
  function FirstMatch(a: seq<Option<string>>, p: int): Option<string>
    requires 0 <= p <= |a|
    decreases |a| - p
  {
    if p == |a| then None else if a[p].Some? then a[p] else FirstMatch(a, p + 1)
  }

  /** The first success is the leftmost one, and there is none exactly when
      every attempt fails. */
  lemma {:induction false} FirstMatchLeftmost(a: seq<Option<string>>, p: int) returns (q: int)
    requires 0 <= p <= |a|
    ensures FirstMatch(a, p).Some? ==>
      && p <= q < |a| && FirstMatch(a, p) == a[q]
      && forall x :: p <= x < q ==> a[x].None?
    ensures FirstMatch(a, p).None? <==> forall x :: p <= x < |a| ==> a[x].None?
    decreases |a| - p
  {
    q := p;
    if p < |a| && a[p].None? {
      q := FirstMatchLeftmost(a, p + 1);
    }
  }

  /** `re.search` is the first success among the attempts. */
  lemma {:induction false} BgFromIsFirstMatch(s: string, p: int)
    requires 0 <= p <= |s|
    ensures BgFrom(s, p) == FirstMatch(Attempts(s), p)
    decreases |s| - p
  {
    if p < |s| {
      BgFromIsFirstMatch(s, p + 1);
    }
  }

  /** `parse_bg_image` returns a value exactly when the style is not empty
      and the pattern matches at some position, and then it returns the
      group of the leftmost match. */
  lemma ParseBgImageIsSearch(style: string) returns (q: int)
    ensures ParseBgImage(style).Some? <==> style != "" && exists x :: 0 <= x <= |style| && BgAt(style, x).Some?
    ensures ParseBgImage(style).Some? ==>
      && 0 <= q < |style| && ParseBgImage(style) == BgAt(style, q)
      && forall x :: 0 <= x < q ==> BgAt(style, x).None?
  {
    var a := Attempts(style);
    BgFromIsFirstMatch(style, 0);
    q := FirstMatchLeftmost(a, 0);
    BgAtEnd(style);
    if style != "" && ParseBgImage(style).None? {
      forall x | 0 <= x < |style| ensures BgAt(style, x).None? {
        assert a[x].None?;
      }
    }
  }

  /** A style whose every `background-image:` is followed by something other
      than `url(` (`background-image: none`, say) gives `None`. */
  lemma ParseBgImageWithoutUrl(style: string)
    requires forall q :: 0 <= q <= |style| && OccursAt(style, BgProperty, q) ==>
      !OccursAt(style, "url(", SkipSpaces(style, q + |BgProperty|))
    ensures ParseBgImage(style).None?
  {
    var q := ParseBgImageIsSearch(style);
    forall x | 0 <= x <= |style| ensures BgAt(style, x).None? {
    }
  }

  /** Whatever `parse_bg_image` returns is text of the style holding
      neither `)` nor a newline. */
  lemma ParseBgImageShape(style: string)
    requires ParseBgImage(style).Some?
    ensures ')' !in ParseBgImage(style).value && '\n' !in ParseBgImage(style).value
  {
    var q := BgFromFacts(style, 0);
  }

  /** A quoted declaration is read back as its URL, for a URL without `)`
      or newline; unlike the `url(...)` extractor, nothing is stripped. */
  lemma ParseQuotedBgImage(u: string)
    requires ')' !in u && '\n' !in u
    ensures ParseBgImage("background-image: url(\"" + u + "\");") == Some(u)
  {
    var s := "background-image: url(\"" + u + "\");";
    var n := |u|;
    assert forall x :: 0 <= x < n ==> s[23 + x] == u[x];
    assert OccursAt(s, BgProperty, 0);
    assert SkipSpaces(s, 17) == 18 by {
      assert IsSpace(s[17]) && !IsSpace(s[18]);
    }
    assert OccursAt(s, "url(", 18);
    BgCloseFinds(s, 23, 23 + n);
    assert s[23..23 + n] == u;
  }

  lemma {:induction false} BgCloseFinds(s: string, i: int, k: int)
    requires 0 <= i <= k && ClosesBg(s, k)
    requires forall x :: i <= x < k ==> !ClosesBg(s, x) && s[x] != '\n'
    ensures BgClose(s, i) == Some(k)
    decreases k - i
  {
    if i < k {
      BgCloseFinds(s, i + 1, k);
    }
  }
}

=== FILE: text.dfy ===
/** The handful of Python `str` operations the modelled code relies on:
    `isspace`, `strip`, substring `in`, `startswith`, `lower` on ASCII letters,
    and `int()` of a run of decimal digits. */
module Text {

  /** Python's `str.isspace()`, which is also the set `\s` matches in a `str`
      regular expression: the ASCII controls TAB..CR and FS..US, the space, and
      the Unicode space separators and line/paragraph separators. */
  predicate IsSpace(c: char) {
    || c == ' '
    || '\t' <= c <= '\r'
    || '\U{1C}' <= c <= '\U{1F}'
    || c == '\U{85}'
    || c == '\U{A0}'
    || c == '\U{1680}'
    || '\U{2000}' <= c <= '\U{200A}'
    || c == '\U{2028}'
    || c == '\U{2029}'
    || c == '\U{202F}'
    || c == '\U{205F}'
    || c == '\U{3000}'
  }

  predicate AllSpace(s: string) {
    forall i :: 0 <= i < |s| ==> IsSpace(s[i])
  }

  /** What `strip()` leaves behind: nothing to strip at either end. */
  predicate IsStripped(s: string) {
    |s| == 0 || (!IsSpace(s[0]) && !IsSpace(s[|s| - 1]))
  }

  /** Python's `str.strip()` with no argument: drop whitespace from both
      ends (the order in which the ends are trimmed does not matter). */
  function Strip(s: string): (r: string)
    ensures IsStripped(r)
    ensures |r| <= |s|
    ensures IsStripped(s) ==> r == s
    decreases |s|
  {
    if |s| > 0 && IsSpace(s[0]) then Strip(s[1..])
    else if |s| > 0 && IsSpace(s[|s| - 1]) then Strip(s[..|s| - 1])
    else s
  }

  /** An already stripped string is left alone. */
  lemma StrippedIsFixed(s: string)
    requires IsStripped(s)
    ensures Strip(s) == s
  {
  }

  /** `strip()` empties exactly the blank strings. */
  lemma StripEmptyIffBlank(s: string)
    ensures Strip(s) == "" <==> AllSpace(s)
  {
    var i := StripIsSlice(s);
    if Strip(s) != "" {
      assert s[i] == Strip(s)[0];
    }
  }

  /** The first index at or after `i` that does not hold whitespace, or `|s|`:
      where a greedy `\s*` starting at `i` stops. */
  function SkipSpaces(s: string, i: int): (j: int)
    requires 0 <= i <= |s|
    ensures i <= j <= |s|
    ensures forall x :: i <= x < j ==> IsSpace(s[x])
    ensures j < |s| ==> !IsSpace(s[j])
    decreases |s| - i
  {
    if i < |s| && IsSpace(s[i]) then SkipSpaces(s, i + 1) else i
  }

  /** `strip()` keeps a contiguous slice and drops only whitespace around it. */
  lemma {:induction false} StripIsSlice(s: string) returns (i: nat)
    ensures i + |Strip(s)| <= |s|
    ensures Strip(s) == s[i..i + |Strip(s)|]
    ensures forall x :: 0 <= x < i ==> IsSpace(s[x])
    ensures forall x :: i + |Strip(s)| <= x < |s| ==> IsSpace(s[x])
    decreases |s|, 1
  {
    if |s| > 0 && IsSpace(s[0]) {
      i := StripFrontIsSlice(s);
    } else if |s| > 0 && IsSpace(s[|s| - 1]) {
      i := StripBackIsSlice(s);
    } else {
      i := 0;
    }
  }

  /** The step of `StripIsSlice` that drops a leading space. */
  lemma {:induction false} StripFrontIsSlice(s: string) returns (i: nat)
    requires |s| > 0 && IsSpace(s[0])
    ensures i + |Strip(s)| <= |s|
    ensures Strip(s) == s[i..i + |Strip(s)|]
    ensures forall x :: 0 <= x < i ==> IsSpace(s[x])
    ensures forall x :: i + |Strip(s)| <= x < |s| ==> IsSpace(s[x])
    decreases |s|, 0
  {
    var t := s[1..];
    assert Strip(s) == Strip(t);
    var k := StripIsSlice(t);
    var n := |Strip(t)|;
    i := k + 1;
    assert t[k..k + n] == s[i..i + n];
    assert forall x :: 0 < x < |s| ==> s[x] == t[x - 1];
  }

  /** The step of `StripIsSlice` that drops a trailing space. */
  lemma {:induction false} StripBackIsSlice(s: string) returns (i: nat)
    requires |s| > 0 && !IsSpace(s[0]) && IsSpace(s[|s| - 1])
    ensures i + |Strip(s)| <= |s|
    ensures Strip(s) == s[i..i + |Strip(s)|]
    ensures forall x :: 0 <= x < i ==> IsSpace(s[x])
    ensures forall x :: i + |Strip(s)| <= x < |s| ==> IsSpace(s[x])
    decreases |s|, 0
  {
    var t := s[..|s| - 1];
    assert Strip(s) == Strip(t);
    i := StripIsSlice(t);
    var n := |Strip(t)|;
    assert t[i..i + n] == s[i..i + n];
    assert forall x :: 0 <= x < |t| ==> t[x] == s[x];
  }

  /** Stripping twice is stripping once. */
  lemma StripIdempotent(s: string)
    ensures Strip(Strip(s)) == Strip(s)
  {
  }

  /** `p` occurs in `s` starting at index `i`. */
  predicate OccursAt(s: string, p: string, i: int) {
    0 <= i && i + |p| <= |s| && forall x :: 0 <= x < |p| ==> s[i + x] == p[x]
  }

  /** Python's `s.startswith(p)`. */
  predicate StartsWith(s: string, p: string) {
    OccursAt(s, p, 0)
  }

  /** Python's `s.endswith(p)`. */
  predicate EndsWith(s: string, p: string) {
    OccursAt(s, p, |s| - |p|)
  }

  /** The substring scan from position `i` on. */
  predicate ContainsFrom(s: string, p: string, i: int)
    requires 0 <= i <= |s|
    decreases |s| - i
  {
    OccursAt(s, p, i) || (i < |s| && ContainsFrom(s, p, i + 1))
  }

  /** Python's substring test `p in s`, scanning start positions left to right. */
  predicate Contains(s: string, p: string) {
    ContainsFrom(s, p, 0)
  }

  /** An occurrence at or after `i` is found by the scan from `i`. */
  lemma {:induction false} OccursFoundFrom(s: string, p: string, i: int, j: int)
    requires 0 <= i <= j && OccursAt(s, p, j)
    ensures ContainsFrom(s, p, i)
    decreases j - i
  {
    if i < j {
      OccursFoundFrom(s, p, i + 1, j);
    }
  }

  /** An occurrence at a known position is found by the scan. */
  lemma OccursImpliesContains(s: string, p: string, i: int)
    requires OccursAt(s, p, i)
    ensures Contains(s, p)
  {
    OccursFoundFrom(s, p, 0, i);
  }

  /** The scan from `i` succeeds only at a real occurrence, which it yields. */
  lemma {:induction false} ContainsFromOccurs(s: string, p: string, i: int) returns (j: int)
    requires 0 <= i <= |s| && ContainsFrom(s, p, i)
    ensures i <= j && OccursAt(s, p, j)
    decreases |s| - i
  {
    if OccursAt(s, p, i) {
      j := i;
    } else {
      j := ContainsFromOccurs(s, p, i + 1);
    }
  }

  /** The scan succeeds only at a real occurrence, whose position it yields. */
  lemma ContainsImpliesOccurs(s: string, p: string) returns (i: int)
    requires Contains(s, p)
    ensures OccursAt(s, p, i)
  {
    i := ContainsFromOccurs(s, p, 0);
  }

  /** The scan agrees with the positional reading of `p in s`. */
  lemma ContainsIffOccurs(s: string, p: string)
    ensures Contains(s, p) <==> exists i :: OccursAt(s, p, i)
  {
    if Contains(s, p) {
      var i := ContainsImpliesOccurs(s, p);
    }
    forall i | OccursAt(s, p, i) ensures Contains(s, p) {
      OccursImpliesContains(s, p, i);
    }
  }

  /** Every slice of `s` is a substring of it. */
  lemma SliceIsContained(s: string, i: int, j: int)
    requires 0 <= i <= j <= |s|
    ensures Contains(s, s[i..j])
  {
    OccursImpliesContains(s, s[i..j], i);
  }

  /** A substring of a slice of `s` is a substring of `s`. */
  lemma ContainedInSlice(s: string, i: int, j: int, p: string)
    requires 0 <= i <= j <= |s|
    requires Contains(s[i..j], p)
    ensures Contains(s, p)
  {
    var k := ContainsImpliesOccurs(s[i..j], p);
    assert OccursAt(s, p, i + k) by {
      forall x | 0 <= x < |p| ensures s[i + k + x] == p[x] {
        assert s[i..j][k + x] == p[x];
      }
    }
    OccursImpliesContains(s, p, i + k);
  }

  /** Whatever is contained in the stripped string is contained in the original. */
  lemma ContainedInStripped(s: string, p: string)
    requires Contains(Strip(s), p)
    ensures Contains(s, p)
  {
    var i := StripIsSlice(s);
    ContainedInSlice(s, i, i + |Strip(s)|, p);
  }

  /** Every character of a contained string occurs in the containing one. */
  lemma ContainedCharsOccur(s: string, p: string, k: int)
    requires Contains(s, p)
    requires 0 <= k < |p|
    ensures p[k] in s
  {
    var i := ContainsImpliesOccurs(s, p);
    assert s[i + k] == p[k];
  }

  /** A string lacking the first character of `p` does not contain `p`. */
  lemma NotContainedWithoutFirstChar(s: string, p: string)
    requires |p| > 0 && p[0] !in s
    ensures !Contains(s, p)
  {
    if Contains(s, p) {
      ContainedCharsOccur(s, p, 0);
    }
  }

  /** An occurrence in `a + b` whose first character is absent from `a` lies in `b`. */
  lemma ContainedPastPrefix(a: string, b: string, p: string)
    requires Contains(a + b, p)
    requires |p| > 0 && p[0] !in a
    ensures Contains(b, p)
  {
    var i := ContainsImpliesOccurs(a + b, p);
    assert (a + b)[i] == p[0];
    assert i >= |a|;
    assert OccursAt(b, p, i - |a|) by {
      forall x | 0 <= x < |p| ensures b[i - |a| + x] == p[x] {
        assert (a + b)[i + x] == p[x];
      }
    }
    OccursImpliesContains(b, p, i - |a|);
  }

  /** `b` is a substring of `a + b`. */
  lemma SuffixIsContained(a: string, b: string)
    ensures Contains(a + b, b)
  {
    assert OccursAt(a + b, b, |a|);
    OccursImpliesContains(a + b, b, |a|);
  }

  /** `a` is a substring of `a + b`. */
  lemma PrefixIsContained(a: string, b: string)
    ensures Contains(a + b, a)
  {
    assert OccursAt(a + b, a, 0);
  }

  predicate IsDigit(c: char) {
    '0' <= c <= '9'
  }

  predicate AllDigits(s: string) {
    forall i :: 0 <= i < |s| ==> IsDigit(s[i])
  }

  function DigitValue(c: char): nat
    requires IsDigit(c)
  {
    c as int - '0' as int
  }

  /** Python's `int(s)` for a run of ASCII decimal digits (`int("")` is
      an error in Python; callers only pass non-empty runs). */
  function DecimalValue(s: string): nat
    requires AllDigits(s)
    decreases |s|
  {
    if |s| == 0 then 0 else 10 * DecimalValue(s[..|s| - 1]) + DigitValue(s[|s| - 1])
  }

  function DigitChar(d: nat): (c: char)
    requires d < 10
    ensures IsDigit(c) && DigitValue(c) == d
  {
    ('0' as int + d) as char
  }

  /** Python's `str(n)` for a natural number. */
  function Decimal(n: nat): (s: string)
    ensures |s| > 0 && AllDigits(s)
  {
    if n < 10 then [DigitChar(n)] else Decimal(n / 10) + [DigitChar(n % 10)]
  }

  /** `int(str(n)) == n`. */
  lemma {:induction false} DecimalRoundTrip(n: nat)
    ensures DecimalValue(Decimal(n)) == n
  {
    var s := Decimal(n);
    if n >= 10 {
      DecimalRoundTrip(n / 10);
      assert s[..|s| - 1] == Decimal(n / 10);
    }
  }

  /** A run of `z` zeros. */
  function Zeros(z: nat): (s: string)
    ensures |s| == z && AllDigits(s)
    ensures forall i :: 0 <= i < z ==> s[i] == '0'
  {
    seq(z, i => '0')
  }

  /** Leading zeros do not change the value `int()` reads. */
  lemma {:induction false} LeadingZerosValue(z: nat, d: string)
    requires AllDigits(d)
    ensures AllDigits(Zeros(z) + d) && DecimalValue(Zeros(z) + d) == DecimalValue(d)
    decreases |d| + z
  {
    var s := Zeros(z) + d;
    if |d| > 0 {
      assert s[..|s| - 1] == Zeros(z) + d[..|d| - 1];
      LeadingZerosValue(z, d[..|d| - 1]);
    } else if z > 0 {
      assert s == Zeros(z);
      assert s[..|s| - 1] == Zeros(z - 1) + d;
      LeadingZerosValue(z - 1, d);
    }
  }

  /** Two-digit zero-padded rendering, `f"{n:02d}"` for `n < 100`. */
  function Pad2(n: nat): (s: string)
    requires n < 100
    ensures |s| == 2 && AllDigits(s) && DecimalValue(s) == n
  {
    var s := [DigitChar(n / 10), DigitChar(n % 10)];
    assert s[..1] == [DigitChar(n / 10)];
    assert s[..1][..0] == [];
    assert DecimalValue(s[..1]) == n / 10;
    s
  }

  /** Python's `str.lower()` restricted to the letters A-Z; other characters are kept. */
  function LowerChar(c: char): char {
    if 'A' <= c <= 'Z' then (c as int - 'A' as int + 'a' as int) as char else c
  }

  function Lower(s: string): (r: string)
    ensures |r| == |s|
    ensures forall i :: 0 <= i < |s| ==> r[i] == LowerChar(s[i])
  {
    seq(|s|, i requires 0 <= i < |s| => LowerChar(s[i]))
  }

  lemma LowerIdempotent(s: string)
    ensures Lower(Lower(s)) == Lower(s)
  {
  }
}

=== FILE: today_filter.dfy ===
/** The today filter of `main` in playwright_kakao_posts_today.py: walk the
    cards of the post list in page order and keep, up to `--max-today` of
    them, those with a non-blank title whose date label `is_today` accepts. */
module TodayFilter {
  import opened Wrappers
  import opened Text
  import opened DateLabels
  import opened Urls

  /** One `div.area_card` as the loop queries it: the inner text of the
      first title element, of the first date element, and the `href` of the
      first title anchor (`None` for an absent element or attribute). */
  datatype FeedCard = FeedCard(title: Option<string>, dateText: Option<string>, href: Option<string>)

  /** An entry of `today_items`. */
  datatype TodayItem = TodayItem(title: string, dateText: string, link: string)

  /** The card passes the three `continue` checks of the loop. */
  predicate Qualifies(c: FeedCard, today: Date) {
    && c.title.Some?
    && Strip(c.title.value) != ""
    && IsToday(Strip(c.dateText.GetOr("")), today)
  }

  /** One iteration of the loop: the item it appends, or `None` when it
      skips the card. */
  function Pick(c: FeedCard, today: Date): (r: Option<TodayItem>)
    ensures r.Some? <==> Qualifies(c, today)
  {
    if Qualifies(c, today) then
      Some(TodayItem(Strip(c.title.value), Strip(c.dateText.GetOr("")), JoinLink(c.href.GetOr(""))))
    else None
  }

  /** The loop's decision on each card. */
  function Picks(cards: seq<FeedCard>, today: Date): (ps: seq<Option<TodayItem>>)
    ensures |ps| == |cards|
    ensures forall i :: 0 <= i < |cards| ==> ps[i] == Pick(cards[i], today)
  {
    seq(|cards|, i requires 0 <= i < |cards| => Pick(cards[i], today))
  }

  /** The items kept, in order. */
  function Kept(ps: seq<Option<TodayItem>>): (r: seq<TodayItem>)
    ensures |r| <= |ps|
    decreases |ps|
  {
    if |ps| == 0 then []
    else
      var last := ps[|ps| - 1];
      Kept(ps[..|ps| - 1]) + (if last.Some? then [last.value] else [])
  }

  /** Reference definition: the items of all qualifying cards, in page order. */
  function Qualifying(cards: seq<FeedCard>, today: Date): (r: seq<TodayItem>)
    ensures |r| <= |cards|
  {
    Kept(Picks(cards, today))
  }

  /** The first `n` elements, or all of them when there are fewer. */
  function Take<T>(s: seq<T>, n: nat): (r: seq<T>)
    ensures |r| == if n < |s| then n else |s|
    ensures r == s[..|r|]
  {
    if n < |s| then s[..n] else s
  }

  /** Keeping from a concatenation keeps from each part. */
  lemma {:induction false} KeptAppend(a: seq<Option<TodayItem>>, b: seq<Option<TodayItem>>)
    ensures Kept(a + b) == Kept(a) + Kept(b)
    decreases |b|
  {
    if |b| == 0 {
      assert a + b == a;
    } else {
      var n := |b| - 1;
      assert (a + b)[..|a + b| - 1] == a + b[..n];
      assert (a + b)[|a + b| - 1] == b[n];
      KeptAppend(a, b[..n]);
    }
  }

  /** The items of a prefix of the decisions are a prefix of all the items. */
  lemma KeptPrefix(ps: seq<Option<TodayItem>>, i: int)
    requires 0 <= i <= |ps|
    ensures var p := Kept(ps[..i]);
      |p| <= |Kept(ps)| && Kept(ps)[..|p|] == p
  {
    assert ps == ps[..i] + ps[i..];
    KeptAppend(ps[..i], ps[i..]);
  }

  /** An item is kept exactly when some decision yields it. */
  lemma {:induction false} KeptMembers(ps: seq<Option<TodayItem>>, it: TodayItem)
    ensures it in Kept(ps) <==> exists i :: 0 <= i < |ps| && ps[i] == Some(it)
    decreases |ps|
  {
    if |ps| > 0 {
      var init := ps[..|ps| - 1];
      KeptMembers(init, it);
      assert forall j :: 0 <= j < |init| ==> init[j] == ps[j];
    }
  }

  /** An item is collected exactly when some card yields it. */
  lemma QualifyingMembers(cards: seq<FeedCard>, today: Date, it: TodayItem)
    ensures it in Qualifying(cards, today) <==> exists i :: 0 <= i < |cards| && Pick(cards[i], today) == Some(it)
  {
    var ps := Picks(cards, today);
    KeptMembers(ps, it);
    if it in Qualifying(cards, today) {
      var i :| 0 <= i < |ps| && ps[i] == Some(it);
      assert Pick(cards[i], today) == Some(it);
    }
  }

  /** What an appended item is made of: a non-blank stripped title, a
      stripped date label that `is_today` accepts, and the joined link. */
  lemma PickedItem(c: FeedCard, today: Date)
    requires Qualifies(c, today)
    ensures var it := Pick(c, today).value;
      && it.title != "" && IsStripped(it.title)
      && IsStripped(it.dateText) && IsToday(it.dateText, today)
      && it.link == JoinLink(c.href.GetOr(""))
  {
  }

  /** A card without a title element, with a blank title, or dated `N일 전`
      is skipped. */
  lemma SkippedCards(c: FeedCard, n: string, today: Date)
    requires |n| > 0 && AllDigits(n)
    ensures c.title.None? ==> Pick(c, today).None?
    ensures c.title.Some? && AllSpace(c.title.value) ==> Pick(c, today).None?
    ensures c.dateText == Some(n + "일 전") ==> Pick(c, today).None?
  {
    if c.title.Some? && AllSpace(c.title.value) {
      StripEmptyIffBlank(c.title.value);
    }
    if c.dateText == Some(n + "일 전") {
      DaysAgoIsNeverToday(n, today);
      StripIdempotent(n + "일 전");
    }
  }

  /** The limit the loop as written enforces: its `>=` test runs only after
      an append, so it is never below one. */
  function WrittenLimit(maxToday: int): (k: nat)
    ensures k >= 1 && k >= maxToday
    ensures maxToday >= 1 ==> k == maxToday
  {
    if maxToday < 1 then 1 else maxToday
  }

  /** The loop as written: append, then break once `len(today_items) >=
      max_today`. */
  method CollectTodayItemsAsWritten(cards: seq<FeedCard>, today: Date, maxToday: int)
    returns (items: seq<TodayItem>)
    ensures items == Take(Qualifying(cards, today), WrittenLimit(maxToday))
  {
    items := KeepAsWritten(Picks(cards, today), maxToday);
  }

  /** The loop of `CollectTodayItemsAsWritten` over the card decisions. */
  method KeepAsWritten(ps: seq<Option<TodayItem>>, maxToday: int) returns (items: seq<TodayItem>)
    ensures items == Take(Kept(ps), WrittenLimit(maxToday))
  {
    var k := WrittenLimit(maxToday);
    items := [];
    var i := 0;
    while i < |ps|
      invariant 0 <= i <= |ps|
      invariant items == Kept(ps[..i])
      invariant |items| < k
    {
      assert ps[..i + 1][..i] == ps[..i];
      var picked := ps[i];
      if picked.Some? {
        items := items + [picked.value];
        if |items| >= maxToday {
          assert items == Kept(ps[..i + 1]);
          TakeAtLimit(ps, i + 1, k);
          return;
        }
      }
      i := i + 1;
    }
    assert ps[..|ps|] == ps;
  }

  /** Once the items of the first decisions reach the limit, they are the
      first `k` items of all of them. */
  lemma TakeAtLimit(ps: seq<Option<TodayItem>>, i: int, k: nat)
    requires 0 <= i <= |ps| && |Kept(ps[..i])| == k
    ensures Kept(ps[..i]) == Take(Kept(ps), k)
  {
    KeptPrefix(ps, i);
  }

  /** With `--max-today 0` (or below) the loop as written still keeps the
      first qualifying card, although the option asks for none. */
  lemma MaxTodayZeroStillYieldsOne(cards: seq<FeedCard>, today: Date, maxToday: int)
    requires maxToday <= 0
    requires exists i :: 0 <= i < |cards| && Qualifies(cards[i], today)
    ensures |Take(Qualifying(cards, today), WrittenLimit(maxToday))| == 1 > maxToday
  {
    var i :| 0 <= i < |cards| && Qualifies(cards[i], today);
    QualifyingMembers(cards, today, Pick(cards[i], today).value);
  }

  /** The limit the option means: at most `max_today` items, none when it
      is zero or negative. */
  function IntendedLimit(maxToday: int): (k: nat)
    ensures k <= maxToday || maxToday < 0
    ensures maxToday >= 1 ==> k == WrittenLimit(maxToday)
  {
    if maxToday < 0 then 0 else maxToday
  }

  /** The loop with the limit checked before each append: the first
      `max_today` qualifying cards, in page order. */
  method CollectTodayItems(cards: seq<FeedCard>, today: Date, maxToday: int)
    returns (items: seq<TodayItem>)
    ensures items == Take(Qualifying(cards, today), IntendedLimit(maxToday))
    ensures maxToday <= 0 ==> items == []
    ensures forall it :: it in items ==> exists i :: 0 <= i < |cards| && Pick(cards[i], today) == Some(it)
  {
    items := KeepUpTo(Picks(cards, today), IntendedLimit(maxToday));
    forall it | it in items
      ensures exists j :: 0 <= j < |cards| && Pick(cards[j], today) == Some(it)
    {
      QualifyingMembers(cards, today, it);
    }
  }

  /** The loop of `CollectTodayItems` over the card decisions. */
  method KeepUpTo(ps: seq<Option<TodayItem>>, k: nat) returns (items: seq<TodayItem>)
    ensures items == Take(Kept(ps), k)
  {
    items := [];
    var i := 0;
    while i < |ps| && |items| < k
      invariant 0 <= i <= |ps|
      invariant items == Kept(ps[..i])
      invariant |items| <= k
    {
      assert ps[..i + 1][..i] == ps[..i];
      var picked := ps[i];
      if picked.Some? {
        items := items + [picked.value];
      }
      i := i + 1;
    }
    KeptPrefix(ps, i);
    if i == |ps| {
      assert ps[..|ps|] == ps;
    }
  }
}

=== FILE: urls.dfy ===
/** Link resolution against the channel site: `urljoin` with the site's
    origin, `https://pf.kakao.com`, which both src/kakao_scraper.py
    (`base_url`) and playwright_kakao_posts_today.py (`BASE`) use. */
module Urls {
  import opened Text

  /** The channel site the links are resolved against. */
  const Base := "https://pf.kakao.com"

  /** The WHATWG "C0 control or space" characters `urlsplit` strips from
      the front of a URL. */
  predicate C0OrSpace(c: char) {
    c <= ' '
  }

  /** The tab, carriage return and line feed `urlsplit` deletes anywhere. */
  predicate UnsafeByte(c: char) {
    c == '\t' || c == '\r' || c == '\n'
  }

  /** `url.lstrip(_WHATWG_C0_CONTROL_OR_SPACE)`. */
  function LStripC0(s: string): (r: string)
    ensures |r| <= |s| && r == s[|s| - |r|..]
    ensures |r| > 0 ==> !C0OrSpace(r[0])
    ensures |s| > 0 && !C0OrSpace(s[0]) ==> r == s
    decreases |s|
  {
    if |s| > 0 && C0OrSpace(s[0]) then LStripC0(s[1..]) else s
  }

  /** The loop deleting each of `_UNSAFE_URL_BYTES_TO_REMOVE`. */
  function RemoveUnsafe(s: string): (r: string)
    ensures |r| <= |s|
    ensures forall i :: 0 <= i < |r| ==> !UnsafeByte(r[i])
    ensures (forall i :: 0 <= i < |s| ==> !UnsafeByte(s[i])) ==> r == s
    ensures |s| > 0 && !UnsafeByte(s[0]) ==> |r| > 0 && r[0] == s[0]
    decreases |s|
  {
    if |s| == 0 then ""
    else (if UnsafeByte(s[0]) then "" else [s[0]]) + RemoveUnsafe(s[1..])
  }

  /** The reference as `urlsplit` sees it: leading controls and spaces
      stripped, then tabs and line breaks deleted. */
  function CleanRef(href: string): (h: string)
    ensures |h| <= |href|
    ensures |h| > 0 ==> !C0OrSpace(h[0])
    ensures forall i :: 0 <= i < |h| ==> !UnsafeByte(h[i])
  {
    RemoveUnsafe(LStripC0(href))
  }

  /** `urljoin(Base, h)` for a cleaned reference `h`: an empty one gives
      the base, a root path is appended to it, and anything else is taken
      as an absolute link. */
  function JoinClean(h: string): (u: string)
    ensures |u| > 0
    ensures h == "" ==> u == Base
    ensures EndsWith(u, h)
    ensures StartsWith(u, Base) || u == h
  {
    if h == "" then Base
    else if h[0] == '/' && !(|h| > 1 && h[1] == '/') then Base + h
    else h
  }

  /** `urljoin(Base, href)`: the reference is cleaned as `urlsplit` does,
      then joined. */
  function JoinLink(href: string): (u: string)
    ensures |u| > 0
    ensures CleanRef(href) == "" ==> u == Base
    ensures EndsWith(u, CleanRef(href))
    ensures StartsWith(u, Base) || u == CleanRef(href)
  {
    JoinClean(CleanRef(href))
  }

  /** No leading control or space and no tab or line break: what cleaning
      leaves alone. */
  predicate IsCleanRef(s: string) {
    && (|s| > 0 ==> !C0OrSpace(s[0]))
    && forall i :: 0 <= i < |s| ==> !UnsafeByte(s[i])
  }

  /** A clean reference is left as it is. */
  lemma CleanRefKeepsClean(s: string)
    requires IsCleanRef(s)
    ensures CleanRef(s) == s
  {
    if |s| > 0 {
      assert LStripC0(s) == s;
    }
  }

  /** An empty or whitespace-only `href` resolves to the site itself. */
  lemma BlankRefIsBase(href: string)
    requires forall i :: 0 <= i < |href| ==> C0OrSpace(href[i])
    ensures JoinLink(href) == Base
  {
  }

  /** The site's URL is clean. */
  lemma BaseIsClean()
    ensures IsCleanRef(Base) && Base[0] == 'h'
  {
  }

  lemma CleanConcat(a: string, b: string)
    requires IsCleanRef(a) && |a| > 0 && IsCleanRef(b)
    ensures IsCleanRef(a + b)
  {
    var c := a + b;
    forall i | 0 <= i < |c| ensures !UnsafeByte(c[i]) {
      if i < |a| {
        assert c[i] == a[i];
      } else {
        assert c[i] == b[i - |a|];
      }
    }
  }

  /** The join of a clean reference is clean again. */
  lemma JoinCleanIsClean(h: string)
    requires IsCleanRef(h)
    ensures IsCleanRef(JoinClean(h))
  {
    BaseIsClean();
    if h != "" && h[0] == '/' && !(|h| > 1 && h[1] == '/') {
      CleanConcat(Base, h);
    }
  }

  /** Resolving a resolved link changes nothing. */
  lemma JoinLinkIdempotent(href: string)
    ensures JoinLink(JoinLink(href)) == JoinLink(href)
  {
    var h := CleanRef(href);
    var u := JoinClean(h);
    assert IsCleanRef(h);
    JoinCleanIsClean(h);
    CleanRefKeepsClean(u);
    assert JoinLink(u) == JoinClean(u);
    if u != h {
      BaseIsClean();
      assert u[0] == 'h';
    }
  }
}

=== FILE: wrappers.dfy ===
/** Optional values and results with an error, as the modelled code uses them:
    `None` for Python's `None`, `Failure` for a raised exception. */
module Wrappers {

  datatype Option<+T> = None | Some(value: T) {

    /** The value, or `default` when there is none (Python's `x or default`
        for a field that is missing or `None`). */
    function GetOr(default: T): T {
      match this
      case Some(v) => v
      case None => default
    }
  }

  datatype Result<+R, +E> = Success(value: R) | Failure(error: E)
}
